=== FILE: README.md ===
# PrimeSieve core in Dafny

This project models the exact-integer core of PrimeSieve and proves what it
guarantees. It covers five parts.

- **The sieve-candidate search** (`SieveCandidateBuilder`). For a prime p1 it
  walks n = 1, 2, ... while z = p1² − 12n² ≥ 0. For each n it walks k1 through
  the progression k1 ≡ p1 (mod 4), k1 ≤ p1 − 1. It solves
  k2² + (k1 − p1)·k2 + (k1² − p1·k1 + 4n²) = 0 through an exact perfect-square
  test on the discriminant, and sets k3 = p1 − k1 − k2. A triple that is a
  permutation of one already seen for this n is dropped. The rest must pass
  two filters:
  - the gcd filter on the Eisenstein coordinates d = k1 − k2, e = k1 − k3;
  - the perfect-power filter on z.

  n keeps its candidate only when exactly one triple survives.
- **The two norm filters:**
  - `EisensteinSieve.MayBeZPrime`, the gcd test;
  - `PerfectSquareSieve.IsPerfectPowerWithBaseAtLeast13`, the test for n = aᵏ
    with a ≥ 13 and k ≥ 2.
- **The integer helpers:** residue alignment, the three-element sort, and the
  floor square roots. One floor square root is a binary search; the others
  correct a floating-point seed.
- **`SumOfSquaresSolver`:** the enumeration of n = a² + b².
- **Primality:** the 6k ± 1 trial division in `PrimeTester` and `PrimeList`,
  and the 6k ± 1 sieve over a packed bit set in `PrimeList.PrimesUpTo`.

The central results are:

- **The candidate-search theorem** (`CandidateSearch.FindCandidatesForP1Lists`).
  The candidates are listed in strictly increasing n. An n ≥ 1 has a candidate
  exactly when its root triples that pass the filters form a single class up
  to permutation. That candidate is a genuine root triple of n that passes both
  filters, and it represents the class.
- **The norm identity.** The search lists d² − de + e² = z as a condition but
  never checks it. `SieveCandidateProperties.EmittedNormIsZ` proves it for
  every emitted candidate.

Floating-point values become inputs of the model. They are:
- the k1 lower bound;
- the exponent bound and the k-th root estimates of the perfect-power filter;
- the seeds of the square-root corrections.

Every property holds whatever those inputs are. The exceptions are where a
contract says otherwise: completeness of the odd-exponent branch is not
claimed.

The repository's own description of `FindSumOfSquaresRepresentations` says it
returns both (a, b) and (b, a) for a ≠ b. The loop runs a over every part up
to ⌊√n⌋ and also adds the mirrored pair, so each representation with a ≠ b is
listed twice. The contract states these multiplicities exactly
(`SumOfSquaresSolver.Occurrences`).

## Model

| member | source | states |
|---|---|---|
| `SieveCandidateBuilder.Sort3` | PrimeSieve/PrimeSieve/SieveCandidateBuilder.cs:277-283 | the three compare-and-swap steps leave the triple in ascending order |
| `SieveCandidateBuilder.Sort3Permutes` | PrimeSieve/PrimeSieve/SieveCandidateBuilder.cs:277-283 | the sorted triple is a permutation of the three inputs |
| `SieveCandidateProperties.Sort3Canonical` | PrimeSieve/PrimeSieve/SieveCandidateBuilder.cs:203-205 | two triples get the same sorted key exactly when one is a permutation of the other, so the seen set drops precisely the permutations of seen triples |
| `SieveCandidateBuilder.AlignUpToResidue` | PrimeSieve/PrimeSieve/SieveCandidateBuilder.cs:288-294 | the result is the least y ≥ x with y ≡ residue (mod m), so x ≤ y < x + m, for negative x and residue too |
| `SieveCandidateBuilder.IntegerSqrt64` | PrimeSieve/PrimeSieve/SieveCandidateBuilder.cs:299-313 | from any seed the two correction loops end at ⌊√x⌋, and 0 is returned for x = 0 |
| `SieveCandidateBuilder.TryCreateCandidate` | PrimeSieve/PrimeSieve/SieveCandidateBuilder.cs:185-268 | an odd root or an already-seen sorted triple changes nothing, so duplicates are dropped before any filter runs; a new triple is recorded as seen; at most one candidate is appended, for this n and k1 |
| `SieveCandidateBuilder.ScanK1` | PrimeSieve/PrimeSieve/SieveCandidateBuilder.cs:124-161 | the k1 loop only adds to the seen set and only appends to the local list; every appended candidate has this n and a k1 in the scanned range |
| `SieveCandidateBuilder.SearchWithResidues` | PrimeSieve/PrimeSieve/SieveCandidateBuilder.cs:104-170 | the global list grows by at most one entry, and only when the k1 scan from the aligned start ends with exactly one local candidate, which is the entry added |
| `SieveCandidateBuilder.SearchOneN` | PrimeSieve/PrimeSieve/SieveCandidateBuilder.cs:41-77 | one pass of the n loop extends the list by at most one candidate, for this n |
| `SieveCandidateBuilder.ScanN` | PrimeSieve/PrimeSieve/SieveCandidateBuilder.cs:39-90 | the n loop only appends, and every entry it appends has an n no smaller than the starting n |
| `SieveCandidateBuilder.FindCandidatesForP1` | PrimeSieve/PrimeSieve/SieveCandidateBuilder.cs:26-93 | nothing is listed for p1 ≤ 1 (nMax ≤ 0) or when p1² overflows a long (the checked z breaks at n = 1), and every listed candidate has n ≥ 1 |
| `SieveCandidateProperties.DiscriminantTestExact` | PrimeSieve/PrimeSieve/SieveCandidateBuilder.cs:131-140 | k2 solves k2² + B·k2 + C = 0 exactly when B² − 4C is a non-negative perfect square and 2k2 = −B ± √(B² − 4C), so the exact square test loses no integer root and admits no false one |
| `SieveCandidateProperties.KRootsExact` | PrimeSieve/PrimeSieve/SieveCandidateBuilder.cs:131-160 | the roots the k1 loop tries are exactly the integer roots of the quadratic, with the second tried only when the discriminant is non-zero |
| `SieveCandidateProperties.RootTripleIdentities` | PrimeSieve/PrimeSieve/SieveCandidateBuilder.cs:197-214 | for a root triple with k1 + k2 + k3 = p1, k1k2 + k2k3 + k3k1 = 4n² and the norm of (k1 − k2, k1 − k3) is p1² − 12n² |
| `SieveCandidateProperties.EmittedNormIsZ` | PrimeSieve/PrimeSieve/SieveCandidateBuilder.cs:177-183 | every emitted candidate satisfies the listed but unchecked condition d² − de + e² = z, and k1k2 + k2k3 + k3k1 = 4n² |
| `SieveCandidateProperties.VerdictOfPermutation` | PrimeSieve/PrimeSieve/SieveCandidateBuilder.cs:203-226 | the gcd filter gives the same verdict on every ordering of a triple, so keeping only the first ordering seen loses no verdict |
| `SieveCandidateProperties.CandidateEmitted` | PrimeSieve/PrimeSieve/SieveCandidateBuilder.cs:264-267 | the candidate built from a passing root triple of n is an emitted one: p2 = p1 + 4n, z = p1² − 12n² ≥ 0, k1 in the progression k1 ≡ p1 (mod 4) up to p1 − 1, k1 + k2 + k3 = p1, Quad = (0, 0, k1 − k2, k1 − k3), and both filters pass |
| `SieveCandidateProperties.TryCreateKeepsInvariant` | PrimeSieve/PrimeSieve/SieveCandidateBuilder.cs:185-268 | trying one root keeps the search invariant: local candidates are emitted ones with distinct keys, and a seen key passes the filters exactly when a local candidate carries it |
| `SieveCandidateProperties.ScanK1KeepsInvariant` | PrimeSieve/PrimeSieve/SieveCandidateBuilder.cs:124-161 | the whole k1 loop keeps the search invariant |
| `SieveCandidateProperties.ScanK1Covers` | PrimeSieve/PrimeSieve/SieveCandidateBuilder.cs:124-161 | after the k1 loop, the sorted form of every root triple in the progression is in the seen set |
| `CandidateSearch.BlockDecides` | PrimeSieve/PrimeSieve/SieveCandidateBuilder.cs:163-169 | the local list has exactly one entry iff the passing root triples of n form a single class up to permutation, and that entry is emitted and represents the class |
| `CandidateSearch.AlignedStart` | PrimeSieve/PrimeSieve/SieveCandidateBuilder.cs:117-120 | starting the progression at the aligned k1 accepts the same root triples as starting at the float bound k1Lo |
| `CandidateSearch.SearchOneNStep` | PrimeSieve/PrimeSieve/SieveCandidateBuilder.cs:58-77 | one pass of the n loop adds an entry exactly when n contributes, and the entry represents n's class |
| `CandidateSearch.ScanNLoop` | PrimeSieve/PrimeSieve/SieveCandidateBuilder.cs:39-90 | the n loop from n lists, in strictly increasing n, one representing candidate for each contributing n' ≥ n and nothing else |
| `CandidateSearch.FindCandidatesForP1Lists` | PrimeSieve/PrimeSieve/SieveCandidateBuilder.cs:26-93 | the candidates of p1 are in strictly increasing n and each represents its n; when p1 ≥ 2 and p1² fits a long, an n ≥ 1 is listed exactly when it contributes |
| `NumberTheory.Rem` | PrimeSieve/PrimeSieve/EisensteinSieve.cs:36 | the truncating remainder: smaller than the divisor in absolute value, never positive for a negative dividend, the Euclidean remainder for a non-negative one, and congruent to the dividend |
| `EisensteinSieve.Gcd` | PrimeSieve/PrimeSieve/EisensteinSieve.cs:32-41 | Euclid's loop returns a non-negative common divisor of a and b, and Gcd(a, 0) = abs(a) |
| `EisensteinSieve.GcdGreatest` | PrimeSieve/PrimeSieve/EisensteinSieve.cs:32-41 | every common divisor of a and b divides Gcd(a, b) |
| `EisensteinSieve.Mod` | PrimeSieve/PrimeSieve/EisensteinSieve.cs:43-47 | for m > 0 the result lies in [0, m) and is congruent to x, i.e. it is the Euclidean remainder |
| `EisensteinSieve.MayBeZPrime` | PrimeSieve/PrimeSieve/EisensteinSieve.cs:13-29 | true iff (d, e) ≠ (0, 0) and gcd(abs(d), abs(e)) = 1 |
| `EisensteinSieve.MayBeZPrimeIffCoprime` | PrimeSieve/PrimeSieve/EisensteinSieve.cs:13-29 | the filter passes exactly the pairs that no integer above one divides both of |
| `EisensteinSieve.MayBeZPrimeIgnoresSigns` | PrimeSieve/PrimeSieve/EisensteinSieve.cs:19-20 | negating d or e does not change the verdict |
| `EisensteinSieve.MayBeZPrimeUnderPermutation` | PrimeSieve/PrimeSieve/EisensteinSieve.cs:19-25 | swapping d and e, or mapping (d, e) to (−d, e − d), does not change the verdict |
| `EisensteinSieve.CommonFactorNormNotPrime` | PrimeSieve/PrimeSieve/EisensteinSieve.cs:22-25 | when g = gcd(abs(d), abs(e)) > 1, d = g·d', e = g·e' and N(d, e) = g²·N(d', e'), so the norm is not prime |
| `EisensteinSieve.PrimeNormPasses` | PrimeSieve/PrimeSieve/EisensteinSieve.cs:13-28 | the filter never rejects a pair whose norm is prime |
| `PerfectSquareSieve.EqualsPowFrom` | PrimeSieve/PrimeSieve/PerfectSquareSieve.cs:26-31 | from step i with partial product aⁱ, the loop with early exit answers aᵏ = n |
| `PerfectSquareSieve.EqualsPow` | PrimeSieve/PrimeSieve/PerfectSquareSieve.cs:23-32 | true iff aᵏ = n |
| `PerfectSquareSieve.OddExponentScan` | PrimeSieve/PrimeSieve/PerfectSquareSieve.cs:54-69 | a true answer means n = aᵏ for some a ≥ 13 and k ≥ 2, whatever the float root estimates are |
| `PerfectSquareSieve.IsPerfectPowerWithBaseAtLeast13` | PrimeSieve/PrimeSieve/PerfectSquareSieve.cs:16-72 | a true answer means n = aᵏ with a ≥ 13 and k ≥ 2; n < 169 gives false; every square n ≥ 169 gives true |
| `PerfectSquareSieve.CorrectedSquareRoot` | PrimeSieve/PrimeSieve/PerfectSquareSieve.cs:36-40 | the two correction loops turn any seed into ⌊√n⌋ |
| `PerfectSquareSieve.PowerWithBaseAtLeast13IsLarge` | PrimeSieve/PrimeSieve/PerfectSquareSieve.cs:18-20 | every aᵏ with a ≥ 13 and k ≥ 2 is at least 169, so the early guard rejects no such power |
| `PerfectSquareSieve.SquaresDecidedExactly` | PrimeSieve/PrimeSieve/PerfectSquareSieve.cs:34-44 | on a square a², the filter answers true exactly when a ≥ 13 |
| `SumOfSquaresSolver.FindSumOfSquaresRepresentations` | PrimeSieve/PrimeSieve/HelperClass.cs:18-51 | nothing for n < 0 and exactly [(0, 0)] for n = 0; otherwise every representation a² + b² = n with a, b ≥ 0 is listed, (a, a) once and (a, b) with a ≠ b twice, and nothing else |
| `SumOfSquaresSolver.ListedRepresentations` | PrimeSieve/PrimeSieve/HelperClass.cs:14-16 | the listed pairs are exactly the representations, and the list is closed under swapping (a, b) to (b, a) |
| `SumOfSquaresSolver.PairsWithPart` | PrimeSieve/PrimeSieve/HelperClass.cs:35-47 | one step stops once a² > n; otherwise it lists (a, b) when n − a² = b², and also (b, a) when a ≠ b |
| `SumOfSquaresSolver.IntegerSqrt` | PrimeSieve/PrimeSieve/HelperClass.cs:55-78 | a negative argument is rejected; otherwise the binary search keeps low² ≤ n < high² and returns ⌊√n⌋ |
| `SumOfSquaresSolver.IsPerfectSquare` | PrimeSieve/PrimeSieve/HelperClass.cs:80-90 | true iff n ≥ 0 and n is a square; the out-value is ⌊√n⌋, or 0 for negative n |
| `NumberTheory.SixKRounds` | PrimeSieve/PrimeSieve/PrimeTester.cs:30-36 | the rounds i = 5, 11, 17, … up to the limit either hit an i with i or i + 2 dividing n, or certify that nothing in [2, limit] divides n |
| `NumberTheory.TrialDivisionStep` | PrimeSieve/PrimeSieve/PrimeTester.cs:30-36 | one round at i = 6k + 5 extends the divisor-free range from [2, i) to [2, i + 6), for n divisible by neither 2 nor 3 |
| `NumberTheory.DivisorFound` | PrimeSieve/PrimeSieve/PrimeTester.cs:32-35 | a hit at i ≤ ⌊√n⌋ proves n composite |
| `NumberTheory.NoDivisorBelowRootMeansPrime` | PrimeSieve/PrimeSieve/PrimeTester.cs:29-38 | when no d in [2, i) divides n and n < i², n is prime |
| `NumberTheory.RoundsDecide` | PrimeSieve/PrimeSieve/PrimeTester.cs:28-38 | with the limit ⌊√n⌋, the rounds find no divisor exactly when n is prime |
| `NumberTheory.DecideBySixKRounds` | PrimeSieve/PrimeSieve/PrimeTester.cs:28-38 | for n ≥ 5 not divisible by 2 or 3, trial division up to ⌊√n⌋ answers true iff n is prime |
| `PrimeTester.IsPrime` | PrimeSieve/PrimeSieve/PrimeTester.cs:17-39 | true iff n is prime: n ≤ 1 fails, 2 and 3 pass, other even numbers and multiples of 3 fail, and the rest go through trial division |
| `NumberTheory.OffWheelNotPrime` | PrimeSieve/PrimeSieve/PrimeList.cs:23 | beyond 3, a number not ≡ ±1 (mod 6) is not prime, so stepping along the wheel skips no prime |
| `PrimeList.NextWheel` | PrimeSieve/PrimeSieve/PrimeList.cs:23 | alternating steps of 2 and 4 from 5 reach the next integer ≡ ±1 (mod 6) and skip none |
| `PrimeList.NewBitSet` | PrimeSieve/PrimeSieve/PrimeList.cs:74-77 | a fresh bit set, n rounded up to whole 32-bit words, has room for at least n bits and every bit is clear |
| `PrimeList.BitSet.Set` | PrimeSieve/PrimeSieve/PrimeList.cs:82-88 | after setting bit i to v, reading bit i gives v and every other bit reads as before |
| `PrimeList.MarkOddMultiples` | PrimeSieve/PrimeSieve/PrimeList.cs:27-28 | marking p², p² + 2p, … up to n sets every such odd multiple, keeps every earlier mark, and marks no prime |
| `PrimeList.SieveWheelComposites` | PrimeSieve/PrimeSieve/PrimeList.cs:23-30 | after the marking loop, a wheel number 5 ≤ c ≤ n is marked exactly when it is composite |
| `PrimeList.CollectWheelPrimes` | PrimeSieve/PrimeSieve/PrimeList.cs:32-36 | the collecting loop yields exactly the primes in [5, n], in ascending order |
| `PrimeList.PrimesUpTo` | PrimeSieve/PrimeSieve/PrimeList.cs:12-37 | the result lists exactly the primes in [2, n], each once, in strictly ascending order |
| `PrimeList.JoinSmallAndWheelPrimes` | PrimeSieve/PrimeSieve/PrimeList.cs:14-17 | 2 and 3 (when not above n) followed by the wheel primes are exactly the primes up to n, ascending |
| `PrimeList.IsPrimeInt` | PrimeSieve/PrimeSieve/PrimeList.cs:39-51 | true iff the int n is prime |
| `PrimeList.IsPrimeLong` | PrimeSieve/PrimeSieve/PrimeList.cs:53-65 | true iff the long n is prime, so both overloads agree on every int |

## Left out

- FindCandidatesForP1: the p1² overflow of the checked z computation (lines 45-56) is modelled as an empty result. The unchecked wrap of C and delta (lines 132-133) is not modelled, and neither is the checked overflow of zEis that discards a candidate (lines 208-221). Both happen only when p1² is within a small factor of the largest long: B² can reach about (4/3·p1)², and d² can reach 4/3·z. The model computes exactly there.
- TryCreateCandidate: the checked zEis computation is not modelled. zEis always equals z (EmittedNormIsZ), so it could discard a candidate only by overflowing, as above.
- Floating point becomes inputs:
  - the k1 lower bound k1Lo;
  - nMax = p1 / √3, which is about twice the largest n with z ≥ 0 (p1 / √12), so the z < 0 break always ends the loop first; only its p1 ≤ 1 case is kept;
  - maxK and the k-th root estimates of the perfect-power filter;
  - the Math.Sqrt seeds of IntegerSqrt64 and CorrectedSquareRoot, which are arbitrary.

  The Math.Sqrt limits in PrimeTester.IsPrime, PrimeList.PrimesUpTo and both IsPrime overloads, and maxA and b in FindSumOfSquaresRepresentations, become the exact floor square root.
- TryCreateCandidate: the documented condition z = a² + b² with a, b ≠ 0 is not checked by SieveCandidateBuilder.cs either; a and b stay 0 in the quadruple.
- OddExponentScan: completeness for odd exponents is not promised, because it depends on the accuracy of the float root estimates and on the 12.95 cut-off. Only soundness is stated.
- EqualsPow: the ulong wrap of the running product is not modelled; the product is exact.
- IsPerfectPowerWithBaseAtLeast13: the wrap of (r + 1)² near 2⁶⁴ is not modelled. The z it receives is at most a long, so r stays below 2³² there.
- IntegerSqrt: the exception on a negative argument becomes the result None.
- PrimesUpTo: n is required to lie in [−32, 2³¹ − 33], the range where the bit-set allocation (PrimeList.cs:19, 76) succeeds without wrapping. For n in [−2³¹ − 1, −33] the word count (n + 32) >> 5 is negative and the allocation throws. For n in [2³¹ − 32, 2³¹ − 2], n + 32 overflows int in the BitSet constructor, and the allocation throws after 2 and 3 have been yielded. Outside the int range the unchecked cast of n + 1 wraps. The C# then either throws later, on an out-of-range index in the marking loop, or, for n below −2³¹ − 1, can return nothing.
- PrimesUpTo: the lazy `yield return` becomes a returned sequence.
- HashSet and List become `set` and `seq`.
- The BitSet class becomes an immutable value whose Set returns the updated set.
- The r2 and r3 parameters of SearchWithResidues and TryCreateCandidate are unused in SieveCandidateBuilder.cs and are dropped. The commented-out residue variants and sum-of-squares wiring are left out.
- The n ∈ {3, 5, 7} early return of IsPerfectPowerWithBaseAtLeast13 is unreachable behind the n < 169 guard, so it has no counterpart.
- Abs(long.MinValue) in MayBeZPrime is not modelled. d and e are differences of the k values, and abs is taken exactly.
- Program.cs is left out; it is console logging and orchestration.
- SieveCSVExporter.cs is left out; it is file output.
- SieveCandidateResult.cs and Quadruple.cs become the datatypes SieveCandidate and Quadruple, without their null-argument checks.

=== FILE: candidate_search.dfy ===
/**
 The guarantees of the whole candidate search for one p1. The k1 scan for one
 n, started on p1's residue class with nothing seen, ends with exactly one
 local candidate precisely when the filter-passing root triples of n form a
 single class up to permutation, and that candidate represents the class. The
 n loop then lists, in increasing order of n, one candidate for each n that
 has a single class, and nothing else.
 */
module CandidateSearch {
  import opened NumberTheory
  import opened EisensteinSieve
  import opened PerfectSquareSieve
  import opened SieveCandidateBuilder
  import opened SieveCandidateProperties

  // ----- classes of root triples -----

  /** A root triple of n in the progression k1 >= lo, k1 = p1 (mod 4), k1 <= p1 - 1
      that passes both filters. */
  ghost predicate PassingRoot(p1: int, n: int, lo: int, powers: PowerEstimates, k1: int, k2: int)
  {
    var z := p1 * p1 - 12 * n * n;
    && lo <= k1 < p1 && k1 % 4 == p1 % 4 && IsRoot(p1, n, k1, k2)
    && Verdict((k1, k2, p1 - k1 - k2))
    && z >= 0 && !IsPerfectPowerWithBaseAtLeast13(z, powers)
  }

  /** PassingRoot as a predicate on (k1, k2). */
  ghost function Passing(p1: int, n: int, lo: int, powers: PowerEstimates): (int, int) -> bool
  {
    (k1: int, k2: int) => PassingRoot(p1, n, lo, powers, k1, k2)
  }

  /** Every (k1, k2) accepted by P gives a permutation of (a, b, c). */
  ghost predicate AllPermutationsOf(p1: int, P: (int, int) -> bool, a: int, b: int, c: int)
  {
    forall k1, k2 :: P(k1, k2) ==> IsPermutationOf((k1, k2, p1 - k1 - k2), a, b, c)
  }

  /** Up to permutation, P accepts exactly one triple (k1, k2, p1 - k1 - k2). */
  ghost predicate SingleClass(p1: int, P: (int, int) -> bool)
  {
    exists a, b :: P(a, b) && AllPermutationsOf(p1, P, a, b, p1 - a - b)
  }

  /** Every passing root triple of n is a permutation of (a, b, c). */
  ghost predicate AllPassingArePermutationsOf(p1: int, n: int, lo: int, powers: PowerEstimates, a: int, b: int, c: int)
  {
    AllPermutationsOf(p1, Passing(p1, n, lo, powers), a, b, c)
  }

  /** Up to permutation, n has exactly one passing root triple. */
  ghost predicate ExactlyOneClass(p1: int, n: int, lo: int, powers: PowerEstimates)
  {
    SingleClass(p1, Passing(p1, n, lo, powers))
  }

  // ----- counting classes by their keys -----

  /** x is the key of some pair accepted by P. */
  ghost predicate KeyOfAccepted<K>(P: (int, int) -> bool, key: (int, int) -> K, x: K)
  {
    exists a, b :: P(a, b) && key(a, b) == x
  }

  /** Every pair accepted by P has key x. */
  ghost predicate AllKeysAre<K>(P: (int, int) -> bool, key: (int, int) -> K, x: K)
  {
    forall a, b :: P(a, b) ==> key(a, b) == x
  }

  /** The pairs accepted by P have exactly one key between them. */
  ghost predicate OneKey<K>(P: (int, int) -> bool, key: (int, int) -> K)
  {
    exists a, b :: P(a, b) && AllKeysAre(P, key, key(a, b))
  }

  /** A duplicate-free list of keys of accepted pairs that holds the key of every
      accepted pair has one entry exactly when there is one key, and it is then
      that key. */
  lemma ListedKeysCount<K>(P: (int, int) -> bool, key: (int, int) -> K, keys: seq<K>)
    requires forall i, j :: 0 <= i < j < |keys| ==> keys[i] != keys[j]
    requires forall i :: 0 <= i < |keys| ==> KeyOfAccepted(P, key, keys[i])
    requires forall a, b :: P(a, b) ==> key(a, b) in keys
    ensures |keys| == 1 <==> OneKey(P, key)
    ensures |keys| == 1 ==> AllKeysAre(P, key, keys[0])
  {
    if |keys| == 1 {
      assert KeyOfAccepted(P, key, keys[0]);
      var a, b :| P(a, b) && key(a, b) == keys[0];
      assert AllKeysAre(P, key, keys[0]);
      assert AllKeysAre(P, key, key(a, b));
    }
    if OneKey(P, key) {
      var a, b :| P(a, b) && AllKeysAre(P, key, key(a, b));
      assert key(a, b) in keys;
      forall i | 0 <= i < |keys|
        ensures keys[i] == key(a, b)
      {
        assert KeyOfAccepted(P, key, keys[i]);
      }
      assert SecondElseFirst(keys) == keys[0];
    }
  }

  /** The second entry of s, or its first when there is no second. */
  function SecondElseFirst<K>(s: seq<K>): K
    requires |s| >= 1
  {
    if |s| >= 2 then s[1] else s[0]
  }

  /** The sorted form of the root triple (k1, k2, p1 - k1 - k2). */
  function RootKey(p1: int): (int, int) -> (int, int, int)
  {
    (k1: int, k2: int) => Sort3(k1, k2, p1 - k1 - k2)
  }

  /** RootKey applied to (k1, k2). */
  lemma RootKeyIsSorted(p1: int, k1: int, k2: int)
    ensures RootKey(p1)(k1, k2) == Sort3(k1, k2, p1 - k1 - k2)
  {
  }

  /** Two root triples have the same sorted form exactly when one is a
      permutation of the other. */
  lemma SameRootKey(p1: int, a: int, b: int, k1: int, k2: int)
    ensures RootKey(p1)(k1, k2) == RootKey(p1)(a, b) <==> IsPermutationOf((k1, k2, p1 - k1 - k2), a, b, p1 - a - b)
  {
    var x, y := RootKey(p1)(a, b), RootKey(p1)(k1, k2);
    RootKeyIsSorted(p1, a, b);
    RootKeyIsSorted(p1, k1, k2);
    SortedEqualIsPermutation(a, b, p1 - a - b, k1, k2, p1 - k1 - k2, x, y);
  }

  /** Sort3Canonical, with the two sorted forms named. */
  lemma SortedEqualIsPermutation(a: int, b: int, c: int, k1: int, k2: int, k3: int, x: (int, int, int), y: (int, int, int))
    requires x == Sort3(a, b, c) && y == Sort3(k1, k2, k3)
    ensures y == x <==> IsPermutationOf((k1, k2, k3), a, b, c)
  {
    Sort3Canonical(a, b, c, k1, k2, k3);
  }

  /** All accepted triples share the sorted form of (a, b, p1 - a - b) exactly when
      all of them are permutations of it. */
  lemma KeysArePermutations(p1: int, P: (int, int) -> bool, a: int, b: int)
    ensures AllKeysAre(P, RootKey(p1), RootKey(p1)(a, b)) <==> AllPermutationsOf(p1, P, a, b, p1 - a - b)
  {
    forall k1, k2 | P(k1, k2)
      ensures RootKey(p1)(k1, k2) == RootKey(p1)(a, b) <==> IsPermutationOf((k1, k2, p1 - k1 - k2), a, b, p1 - a - b)
    {
      SameRootKey(p1, a, b, k1, k2);
    }
  }

  /** One sorted form among the accepted triples is one permutation class. */
  lemma OneKeyIsSingleClass(p1: int, P: (int, int) -> bool)
    ensures OneKey(P, RootKey(p1)) <==> SingleClass(p1, P)
  {
    if OneKey(P, RootKey(p1)) {
      var a, b :| P(a, b) && AllKeysAre(P, RootKey(p1), RootKey(p1)(a, b));
      KeysArePermutations(p1, P, a, b);
    }
    if SingleClass(p1, P) {
      var a, b :| P(a, b) && AllPermutationsOf(p1, P, a, b, p1 - a - b);
      KeysArePermutations(p1, P, a, b);
    }
  }

  /** ListedKeysCount for sorted root triples, stated with permutation classes. */
  lemma ClassFromKeys(p1: int, P: (int, int) -> bool, keys: seq<(int, int, int)>)
    requires forall i, j :: 0 <= i < j < |keys| ==> keys[i] != keys[j]
    requires forall i :: 0 <= i < |keys| ==> KeyOfAccepted(P, RootKey(p1), keys[i])
    requires forall a, b :: P(a, b) ==> RootKey(p1)(a, b) in keys
    ensures |keys| == 1 <==> SingleClass(p1, P)
    ensures |keys| == 1 ==> AllKeysAre(P, RootKey(p1), keys[0])
  {
    ListedKeysCount(P, RootKey(p1), keys);
    OneKeyIsSingleClass(p1, P);
  }

  /** A triple whose sorted form every accepted triple shares represents their
      permutation class. */
  lemma Representative(p1: int, P: (int, int) -> bool, a: int, b: int, c: int, x: (int, int, int))
    requires x == RootKey(p1)(a, b) && c == p1 - a - b && AllKeysAre(P, RootKey(p1), x)
    ensures AllPermutationsOf(p1, P, a, b, c)
  {
    KeysArePermutations(p1, P, a, b);
  }

  // ----- one n -----

  /** The scan from start, with nothing seen, keeps the invariant and sees the
      sorted form of every root triple of the progression from start on. */
  lemma ScanFromScratch(p1: int, n: int, p2: int, z: int, start: int, powers: PowerEstimates)
    requires n >= 1 && p2 == p1 + 4 * n && z == p1 * p1 - 12 * n * n && z >= 0 && start % 4 == p1 % 4
    ensures SearchInvariant(p1, n, start, powers, ScanK1(p1, n, p2, z, start, p1 - 1, powers, Search({}, [])))
    ensures Covered(p1, n, start, p1, ScanK1(p1, n, p2, z, start, p1 - 1, powers, Search({}, [])).seen)
  {
    ScanK1KeepsInvariant(p1, n, p2, z, start, start, powers, Search({}, []));
    ScanK1Covers(p1, n, p2, z, start, start, powers, Search({}, []));
  }

  /** The keys of the local candidates, in order. */
  function Keys(local: seq<SieveCandidate>): (r: seq<(int, int, int)>)
    ensures |r| == |local| && forall i :: 0 <= i < |local| ==> r[i] == Key(local[i])
  {
    seq(|local|, i requires 0 <= i < |local| => Key(local[i]))
  }

  /** An emitted candidate is a passing root triple, keyed by its sorted form. */
  lemma EmittedPasses(c: SieveCandidate, p1: int, n: int, lo: int, powers: PowerEstimates)
    requires Emitted(c, p1, n, lo, powers)
    ensures Passing(p1, n, lo, powers)(c.k1, c.k2) && RootKey(p1)(c.k1, c.k2) == Key(c)
  {
  }

  /** Every local key is the key of a passing root triple. */
  lemma ListedPass(p1: int, n: int, from: int, powers: PowerEstimates, st: Search)
    requires SearchInvariant(p1, n, from, powers, st)
    ensures forall i :: 0 <= i < |st.local| ==> KeyOfAccepted(Passing(p1, n, from, powers), RootKey(p1), Keys(st.local)[i])
  {
    var keys := Keys(st.local);
    forall i | 0 <= i < |st.local|
      ensures KeyOfAccepted(Passing(p1, n, from, powers), RootKey(p1), keys[i])
    {
      var c := st.local[i];
      EmittedPasses(c, p1, n, from, powers);
      assert Passing(p1, n, from, powers)(c.k1, c.k2) && RootKey(p1)(c.k1, c.k2) == keys[i];
    }
  }

  /** A booked key that satisfies ok is a local key. */
  lemma BookedIsListed(seen: set<(int, int, int)>, local: seq<SieveCandidate>, ok: ((int, int, int)) -> bool,
                       key: (int, int, int))
    requires KeyBook(seen, local, ok) && key in seen && ok(key)
    ensures key in Keys(local)
  {
    var i :| 0 <= i < |local| && Key(local[i]) == key;
    assert Keys(local)[i] == key;
  }

  /** Once the scan has covered the progression, the sorted form of a passing
      root triple is seen and passes the filters. */
  lemma PassingIsBooked(p1: int, n: int, from: int, powers: PowerEstimates, seen: set<(int, int, int)>, k1: int, k2: int)
    requires Covered(p1, n, from, p1, seen) && PassingRoot(p1, n, from, powers, k1, k2)
    ensures Sort3(k1, k2, p1 - k1 - k2) in seen && PassesFor(p1 * p1 - 12 * n * n, powers)(Sort3(k1, k2, p1 - k1 - k2))
  {
    SortedTriplePasses(p1 * p1 - 12 * n * n, k1, k2, p1 - k1 - k2, powers);
    PassesForIs(p1 * p1 - 12 * n * n, powers, Sort3(k1, k2, p1 - k1 - k2));
  }

  /** Once the scan has covered the progression, the sorted form of a passing
      root triple is a local key. */
  lemma PassingIsListed(p1: int, n: int, from: int, powers: PowerEstimates, st: Search, k1: int, k2: int)
    requires KeyBook(st.seen, st.local, PassesFor(p1 * p1 - 12 * n * n, powers)) && Covered(p1, n, from, p1, st.seen)
    requires PassingRoot(p1, n, from, powers, k1, k2)
    ensures RootKey(p1)(k1, k2) in Keys(st.local)
  {
    PassingIsBooked(p1, n, from, powers, st.seen, k1, k2);
    BookedIsListed(st.seen, st.local, PassesFor(p1 * p1 - 12 * n * n, powers), Sort3(k1, k2, p1 - k1 - k2));
    RootKeyIsSorted(p1, k1, k2);
  }

  /** The sorted form of every passing root triple is a local key. */
  lemma PassingListed(p1: int, n: int, from: int, powers: PowerEstimates, st: Search)
    requires n >= 1 && p1 * p1 - 12 * n * n >= 0
    requires SearchInvariant(p1, n, from, powers, st) && Covered(p1, n, from, p1, st.seen)
    ensures forall k1, k2 :: Passing(p1, n, from, powers)(k1, k2) ==> RootKey(p1)(k1, k2) in Keys(st.local)
  {
    forall k1, k2 | Passing(p1, n, from, powers)(k1, k2)
      ensures RootKey(p1)(k1, k2) in Keys(st.local)
    {
      PassingIsListed(p1, n, from, powers, st, k1, k2);
    }
  }

  /** The local keys are pairwise different. */
  lemma ListedDistinct(seen: set<(int, int, int)>, local: seq<SieveCandidate>, ok: ((int, int, int)) -> bool)
    requires KeyBook(seen, local, ok)
    ensures forall i, j :: 0 <= i < j < |local| ==> Keys(local)[i] != Keys(local)[j]
  {
  }

  /** The per-n theorem: the scan ends with exactly one local candidate iff the
      passing root triples form a single class, and that candidate represents it. */
  lemma BlockDecides(p1: int, n: int, from: int, powers: PowerEstimates, st: Search)
    requires n >= 1 && p1 * p1 - 12 * n * n >= 0
    requires SearchInvariant(p1, n, from, powers, st) && Covered(p1, n, from, p1, st.seen)
    ensures |st.local| == 1 <==> ExactlyOneClass(p1, n, from, powers)
    ensures |st.local| == 1 ==>
      var c := st.local[0];
      Emitted(c, p1, n, from, powers) && AllPassingArePermutationsOf(p1, n, from, powers, c.k1, c.k2, c.k3)
  {
    var P, keys := Passing(p1, n, from, powers), Keys(st.local);
    ListedPass(p1, n, from, powers, st);
    PassingListed(p1, n, from, powers, st);
    ListedDistinct(st.seen, st.local, PassesFor(p1 * p1 - 12 * n * n, powers));
    ClassFromKeys(p1, P, keys);
    if |st.local| == 1 {
      var c := st.local[0];
      EmittedPasses(c, p1, n, from, powers);
      Representative(p1, P, c.k1, c.k2, c.k3, keys[0]);
    }
  }

  // ----- the float bound on k1 and the residue alignment -----

  /** Passing applied to (k1, k2). */
  lemma PassingIs(p1: int, n: int, lo: int, powers: PowerEstimates, k1: int, k2: int)
    ensures Passing(p1, n, lo, powers)(k1, k2) == PassingRoot(p1, n, lo, powers, k1, k2)
  {
  }

  /** P and Q accept the same pairs. */
  ghost predicate SameAccepted(P: (int, int) -> bool, Q: (int, int) -> bool)
  {
    forall a, b :: P(a, b) <==> Q(a, b)
  }

  /** Predicates that accept the same pairs have the same classes. */
  lemma SameAcceptedSameClasses(p1: int, P: (int, int) -> bool, Q: (int, int) -> bool, a: int, b: int, c: int)
    requires SameAccepted(P, Q)
    ensures SingleClass(p1, P) <==> SingleClass(p1, Q)
    ensures AllPermutationsOf(p1, P, a, b, c) <==> AllPermutationsOf(p1, Q, a, b, c)
  {
    if SingleClass(p1, P) {
      var x, y :| P(x, y) && AllPermutationsOf(p1, P, x, y, p1 - x - y);
      assert Q(x, y) && AllPermutationsOf(p1, Q, x, y, p1 - x - y);
    }
    if SingleClass(p1, Q) {
      var x, y :| Q(x, y) && AllPermutationsOf(p1, Q, x, y, p1 - x - y);
      assert P(x, y) && AllPermutationsOf(p1, P, x, y, p1 - x - y);
    }
  }

  /** Starting the k1 progression at the least k1 >= lo with k1 = p1 (mod 4)
      accepts the same root triples as starting at lo. */
  lemma AlignedStart(p1: int, n: int, lo: int, powers: PowerEstimates)
    ensures SameAccepted(Passing(p1, n, lo, powers), Passing(p1, n, AlignUpToResidue(lo, 4, p1 % 4), powers))
  {
    var start := AlignUpToResidue(lo, 4, p1 % 4);
    CongruentToRemainder(p1, 4);
    forall k1, k2
      ensures Passing(p1, n, lo, powers)(k1, k2) <==> Passing(p1, n, start, powers)(k1, k2)
    {
      PassingIs(p1, n, lo, powers, k1, k2);
      PassingIs(p1, n, start, powers, k1, k2);
      if lo <= k1 && k1 % 4 == p1 % 4 {
        assert Congruent(k1, p1 % 4, 4);
      }
    }
  }

  /** An emitted candidate of a later start is one of an earlier start. */
  lemma EmittedFromEarlier(c: SieveCandidate, p1: int, n: int, lo: int, start: int, powers: PowerEstimates)
    requires lo <= start && Emitted(c, p1, n, start, powers)
    ensures Emitted(c, p1, n, lo, powers)
  {
  }

  // ----- one step of the n loop -----

  /** n contributes a candidate: z = p1^2 - 12 n^2 is not negative and the passing
      root triples of n, from the float bound on k1, form a single class. */
  ghost predicate Contributes(p1: int, n: int, fm: FloatModel)
  {
    n >= 1 && p1 * p1 - 12 * n * n >= 0 && ExactlyOneClass(p1, n, fm.k1Lo(p1, n), fm.powers)
  }

  /** c is an emitted candidate for its n that represents n's single class. */
  ghost predicate Represents(c: SieveCandidate, p1: int, fm: FloatModel)
  {
    var lo := fm.k1Lo(p1, c.n);
    Emitted(c, p1, c.n, lo, fm.powers) && AllPassingArePermutationsOf(p1, c.n, lo, fm.powers, c.k1, c.k2, c.k3)
  }

  /** SearchOneN adds the local list of the scan from the aligned start exactly
      when that list has one entry. (Below the float bound the scan is empty.) */
  lemma {:induction false} SearchOneNAddsSingle(p1: int, n: int, fm: FloatModel, acc: seq<SieveCandidate>)
    requires p1 * p1 - 12 * n * n >= 0
    ensures var st := ScanK1(p1, n, p1 + 4 * n, p1 * p1 - 12 * n * n,
                             AlignUpToResidue(fm.k1Lo(p1, n), 4, p1 % 4), p1 - 1, fm.powers, Search({}, []));
      && (|st.local| == 1 ==> SearchOneN(p1, p1 % 4, n, fm, acc) == acc + st.local)
      && (|st.local| != 1 ==> SearchOneN(p1, p1 % 4, n, fm, acc) == acc)
  {
  }

  /** The scan with p2 and z named is the scan with them computed from p1 and n. */
  lemma {:induction false} ScanWithNamedZ(p1: int, n: int, p2: int, z: int, k1: int, k1Hi: int, powers: PowerEstimates, st: Search)
    requires p2 == p1 + 4 * n && z == p1 * p1 - 12 * n * n && z >= 0
    ensures ScanK1(p1, n, p2, z, k1, k1Hi, powers, st) == ScanK1(p1, n, p1 + 4 * n, p1 * p1 - 12 * n * n, k1, k1Hi, powers, st)
  {
  }

  /** The scan st from a start on p1's residue class, with nothing seen, decides
      n for that start. */
  lemma ScratchScanDecides(p1: int, n: int, p2: int, z: int, start: int, powers: PowerEstimates, st: Search)
    requires n >= 1 && p2 == p1 + 4 * n && z == p1 * p1 - 12 * n * n && z >= 0 && start % 4 == p1 % 4
    requires st == ScanK1(p1, n, p2, z, start, p1 - 1, powers, Search({}, []))
    ensures |st.local| == 1 <==> ExactlyOneClass(p1, n, start, powers)
    ensures |st.local| == 1 ==>
      var c := st.local[0];
      Emitted(c, p1, n, start, powers) && AllPassingArePermutationsOf(p1, n, start, powers, c.k1, c.k2, c.k3)
  {
    ScanFromScratch(p1, n, p2, z, start, powers);
    BlockDecides(p1, n, start, powers, st);
  }

  /** The scan st from the aligned start decides n: it ends with one local
      candidate exactly when the passing root triples from lo on form a single
      class, and that candidate represents it. */
  lemma AlignedScanDecides(p1: int, n: int, p2: int, z: int, lo: int, powers: PowerEstimates, st: Search)
    requires n >= 1 && p2 == p1 + 4 * n && z == p1 * p1 - 12 * n * n && z >= 0
    requires st == ScanK1(p1, n, p2, z, AlignUpToResidue(lo, 4, p1 % 4), p1 - 1, powers, Search({}, []))
    ensures |st.local| == 1 <==> ExactlyOneClass(p1, n, lo, powers)
    ensures |st.local| == 1 ==>
      var c := st.local[0];
      Emitted(c, p1, n, lo, powers) && AllPassingArePermutationsOf(p1, n, lo, powers, c.k1, c.k2, c.k3)
  {
    var start := AlignUpToResidue(lo, 4, p1 % 4);
    CongruentToRemainder(p1, 4);
    ScratchScanDecides(p1, n, p2, z, start, powers, st);
    AlignedStart(p1, n, lo, powers);
    if |st.local| == 1 {
      var c := st.local[0];
      SameAcceptedSameClasses(p1, Passing(p1, n, lo, powers), Passing(p1, n, start, powers), c.k1, c.k2, c.k3);
      EmittedFromEarlier(c, p1, n, lo, start, powers);
    } else {
      SameAcceptedSameClasses(p1, Passing(p1, n, lo, powers), Passing(p1, n, start, powers), 0, 0, 0);
    }
  }

  /** One step of the n loop: SearchOneN adds an entry exactly when n
      contributes, and the entry then represents n's class. */
  lemma SearchOneNStep(p1: int, n: int, fm: FloatModel, acc: seq<SieveCandidate>)
    requires n >= 1 && p1 * p1 - 12 * n * n >= 0
    ensures var r := SearchOneN(p1, p1 % 4, n, fm, acc);
      && (|r| > |acc| <==> Contributes(p1, n, fm))
      && (|r| > |acc| ==> r[|acc|].n == n && Represents(r[|acc|], p1, fm))
  {
    var p2, z, lo := p1 + 4 * n, p1 * p1 - 12 * n * n, fm.k1Lo(p1, n);
    var start := AlignUpToResidue(lo, 4, p1 % 4);
    SearchOneNAddsSingle(p1, n, fm, acc);
    ScanWithNamedZ(p1, n, p2, z, start, p1 - 1, fm.powers, Search({}, []));
    var st := ScanK1(p1, n, p2, z, start, p1 - 1, fm.powers, Search({}, []));
    AlignedScanDecides(p1, n, p2, z, lo, fm.powers, st);
  }

  // ----- the n loop -----

  /** Some entry of r at index from or later is for m. */
  ghost predicate ListsN(r: seq<SieveCandidate>, from: int, m: int)
  {
    exists i :: 0 <= i < |r| && from <= i && r[i].n == m
  }

  /** The entries r adds after acc, for the n from n0 on: each satisfies R, their
      n strictly increase, and an n >= n0 has an entry exactly when C holds. */
  ghost predicate LoopResult(C: int -> bool, R: SieveCandidate -> bool, n0: int,
                             acc: seq<SieveCandidate>, r: seq<SieveCandidate>)
  {
    && |acc| <= |r| && r[..|acc|] == acc
    && (forall i :: |acc| <= i < |r| ==> n0 <= r[i].n && R(r[i]))
    && (forall i, j :: |acc| <= i < j < |r| ==> r[i].n < r[j].n)
    && (forall m :: n0 <= m ==> (C(m) <==> ListsN(r, |acc|, m)))
  }

  /** When no n from n0 on satisfies C, adding nothing is the loop's result. */
  lemma EmptyLoopResult(C: int -> bool, R: SieveCandidate -> bool, n0: int, acc: seq<SieveCandidate>)
    requires forall m :: n0 <= m ==> !C(m)
    ensures LoopResult(C, R, n0, acc, acc)
  {
  }

  /** One turn of the loop: next adds at most one entry, for n, exactly when C(n)
      holds; the rest of the loop, from n + 1, gives r. Then r is the loop's
      result from n. */
  lemma LoopStep(C: int -> bool, R: SieveCandidate -> bool, n: int,
                 acc: seq<SieveCandidate>, next: seq<SieveCandidate>, r: seq<SieveCandidate>)
    requires |acc| <= |next| <= |acc| + 1 && next[..|acc|] == acc
    requires |next| > |acc| <==> C(n)
    requires |next| > |acc| ==> next[|acc|].n == n && R(next[|acc|])
    requires LoopResult(C, R, n + 1, next, r)
    ensures LoopResult(C, R, n, acc, r)
  {
    PrefixOfPrefix(acc, next, r);
    forall i | |acc| <= i < |r|
      ensures n <= r[i].n && R(r[i])
    {
      if i < |next| {
        assert r[i] == next[i];
      }
    }
    forall i, j | |acc| <= i < j < |r|
      ensures r[i].n < r[j].n
    {
      if i < |next| {
        assert r[i] == next[i];
      }
    }
    forall m | n <= m
      ensures C(m) <==> ListsN(r, |acc|, m)
    {
      if m == n {
        if C(n) {
          assert r[|acc|] == next[|acc|];
        }
        if ListsN(r, |acc|, n) {
          var i :| |acc| <= i < |r| && r[i].n == n;
          assert i < |next|;
        }
      } else {
        if ListsN(r, |acc|, m) {
          var i :| |acc| <= i < |r| && r[i].n == m;
          assert |next| <= i;
          assert ListsN(r, |next|, m);
        }
        if ListsN(r, |next|, m) {
          var i :| |next| <= i < |r| && r[i].n == m;
          assert ListsN(r, |acc|, m);
        }
      }
    }
  }

  /** Contributes as a predicate on n. */
  ghost function ContributesAt(p1: int, fm: FloatModel): int -> bool
  {
    m => Contributes(p1, m, fm)
  }

  /** Represents as a predicate on candidates. */
  ghost function RepresentsFor(p1: int, fm: FloatModel): SieveCandidate -> bool
  {
    c => Represents(c, p1, fm)
  }

  /** ContributesAt and RepresentsFor applied. */
  lemma LoopPredicatesAre(p1: int, fm: FloatModel, m: int, c: SieveCandidate)
    ensures ContributesAt(p1, fm)(m) == Contributes(p1, m, fm)
    ensures RepresentsFor(p1, fm)(c) == Represents(c, p1, fm)
  {
  }

  /** z = p1^2 - 12 n^2 decreases as n grows. */
  lemma ZDecreases(p1: int, n: int, m: int)
    requires 1 <= n <= m
    ensures p1 * p1 - 12 * m * m <= p1 * p1 - 12 * n * n
    ensures p1 * p1 - 12 * (n + 1) * (n + 1) < p1 * p1 - 12 * n * n
  {
    SquareMonotone(n, m);
    assert (n + 1) * (n + 1) == n * n + 2 * n + 1;
  }

  /** An n with z = p1^2 - 12 n^2 negative does not contribute. */
  lemma NegativeZDoesNotContribute(p1: int, m: int, fm: FloatModel)
    requires p1 * p1 - 12 * m * m < 0
    ensures !ContributesAt(p1, fm)(m)
  {
    LoopPredicatesAre(p1, fm, m, SieveCandidate(0, 0, 0, 0, 0, 0, 0, Quadruple(0, 0, 0, 0)));
  }

  /** Once z = p1^2 - 12 n^2 is negative, no later n contributes. */
  lemma NothingBeyond(p1: int, n: int, fm: FloatModel)
    requires n >= 1 && p1 * p1 - 12 * n * n < 0
    ensures forall m :: n <= m ==> !ContributesAt(p1, fm)(m)
  {
    forall m | n <= m
      ensures !ContributesAt(p1, fm)(m)
    {
      ZDecreases(p1, n, m);
      NegativeZDoesNotContribute(p1, m, fm);
    }
  }

  /** ScanN from n is SearchOneN for n followed by ScanN from n + 1. */
  lemma {:induction false} ScanNUnfolds(p1: int, n: int, fm: FloatModel, acc: seq<SieveCandidate>)
    requires n >= 1 && p1 * p1 - 12 * n * n >= 0
    ensures ScanN(p1, p1 % 4, n, fm, acc) == ScanN(p1, p1 % 4, n + 1, fm, SearchOneN(p1, p1 % 4, n, fm, acc))
  {
  }

  /** One step of the n loop in the loop's own terms. */
  lemma SearchOneNLoopStep(p1: int, n: int, fm: FloatModel, acc: seq<SieveCandidate>)
    requires n >= 1 && p1 * p1 - 12 * n * n >= 0
    ensures var next := SearchOneN(p1, p1 % 4, n, fm, acc);
      && |acc| <= |next| <= |acc| + 1 && next[..|acc|] == acc
      && (|next| > |acc| <==> ContributesAt(p1, fm)(n))
      && (|next| > |acc| ==> next[|acc|].n == n && RepresentsFor(p1, fm)(next[|acc|]))
  {
    var next := SearchOneN(p1, p1 % 4, n, fm, acc);
    SearchOneNStep(p1, n, fm, acc);
    if |next| > |acc| {
      LoopPredicatesAre(p1, fm, n, next[|acc|]);
    } else {
      LoopPredicatesAre(p1, fm, n, SieveCandidate(0, 0, 0, 0, 0, 0, 0, Quadruple(0, 0, 0, 0)));
    }
  }

  /** The n loop from n lists, after acc, one representing candidate for each
      contributing n >= n, in increasing order of n, and nothing else. */
  lemma {:induction false} ScanNLoop(p1: int, n: int, fm: FloatModel, acc: seq<SieveCandidate>)
    requires n >= 1
    decreases p1 * p1 - 12 * n * n
    ensures LoopResult(ContributesAt(p1, fm), RepresentsFor(p1, fm), n, acc, ScanN(p1, p1 % 4, n, fm, acc))
  {
    if p1 * p1 - 12 * n * n < 0 {
      NothingBeyond(p1, n, fm);
      EmptyLoopResult(ContributesAt(p1, fm), RepresentsFor(p1, fm), n, acc);
    } else {
      var next := SearchOneN(p1, p1 % 4, n, fm, acc);
      SearchOneNLoopStep(p1, n, fm, acc);
      ScanNUnfolds(p1, n, fm, acc);
      ZDecreases(p1, n, n);
      ScanNLoop(p1, n + 1, fm, next);
      LoopStep(ContributesAt(p1, fm), RepresentsFor(p1, fm), n, acc, next, ScanN(p1, p1 % 4, n + 1, fm, next));
    }
  }

  /** FindCandidatesForP1 lists nothing for p1 <= 1 or p1^2 beyond the largest
      long, and otherwise one representing candidate for each contributing
      n >= 1, in increasing order of n, and nothing else. */
  lemma FindCandidatesForP1Lists(p1: int, fm: FloatModel)
    ensures var r := FindCandidatesForP1(p1, fm);
      && (p1 <= 1 || p1 * p1 > Int64Max ==> r == [])
      && (forall i :: 0 <= i < |r| ==> Represents(r[i], p1, fm))
      && (forall i, j :: 0 <= i < j < |r| ==> r[i].n < r[j].n)
      && (p1 >= 2 && p1 * p1 <= Int64Max ==> forall m :: 1 <= m ==> (Contributes(p1, m, fm) <==> exists i :: 0 <= i < |r| && r[i].n == m))
  {
    var r := FindCandidatesForP1(p1, fm);
    if p1 >= 2 && p1 * p1 <= Int64Max {
      ScanNLoop(p1, 1, fm, []);
      forall i | 0 <= i < |r|
        ensures Represents(r[i], p1, fm)
      {
        LoopPredicatesAre(p1, fm, 0, r[i]);
      }
      forall m | 1 <= m
        ensures Contributes(p1, m, fm) <==> exists i :: 0 <= i < |r| && r[i].n == m
      {
        LoopPredicatesAre(p1, fm, m, SieveCandidate(0, 0, 0, 0, 0, 0, 0, Quadruple(0, 0, 0, 0)));
        assert ListsN(r, 0, m) <==> exists i :: 0 <= i < |r| && r[i].n == m;
      }
    }
  }
}

=== FILE: eisenstein_sieve.dfy ===
/**
 The gcd filter on Eisenstein coordinates: d + e*w can only have a prime norm
 when d and e have no common factor.
 */
module EisensteinSieve {
  import opened NumberTheory

  /** The Eisenstein norm N(d + e*w) = d^2 - d*e + e^2. */
  function Norm(d: int, e: int): int
  {
    d * d - d * e + e * e
  }

  /** No integer greater than one divides both d and e. */
  ghost predicate Coprime(d: int, e: int)
  {
    forall k :: k > 1 ==> !(Divides(k, d) && Divides(k, e))
  }

  /** Euclid's algorithm: while b is not zero, replace (a, b) by (b, a rem b) with C#'s
      remainder, followed by the absolute value of a. */
  function Gcd(a: int, b: int): (g: int)
    decreases Abs(b)
    ensures g >= 0
    ensures Divides(g, a) && Divides(g, b)
    ensures b == 0 ==> g == Abs(a)
  {
    if b == 0 then
      AbsDivides(a);
      Abs(a)
    else
      GcdStep(a, b);
      Gcd(b, Rem(a, b))
  }

  /** Every common divisor of a and b divides their gcd. */
  lemma {:induction false} GcdGreatest(a: int, b: int, k: int)
    requires Divides(k, a) && Divides(k, b)
    ensures Divides(k, Gcd(a, b))
    decreases Abs(b)
  {
    if b == 0 {
      AbsDivides(a);
    } else {
      GcdStep(a, b);
      GcdGreatest(b, Rem(a, b), k);
    }
  }

  /** Non-negative remainder: C#'s remainder, shifted up by m when negative. */
  function Mod(x: int, m: int): (r: int)
    requires m > 0
    ensures 0 <= r < m
    ensures Divides(m, x - r)
    ensures r == x % m
  {
    var t := Rem(x, m);
    var r := if t < 0 then t + m else t;
    assert Divides(m, x - r) by {
      if t < 0 {
        DividesLinear(m, x - t, m, -1);
      }
    }
    DividesFactor(m, x - r);
    ModUnique(x, m, r, (x - r) / m);
    r
  }

  /** The sieve: (0, 0) is rejected, and so is every (d, e) whose absolute
      values have a gcd above one. */
  function MayBeZPrime(d: int, e: int): (r: bool)
    ensures r <==> (d != 0 || e != 0) && Gcd(Abs(d), Abs(e)) == 1
  {
    if d == 0 && e == 0 then false
    else
      var g := Gcd(Abs(d), Abs(e));
      if g > 1 then false else true
  }

  // ----- helpers -----

  lemma AbsDivides(a: int)
    ensures Divides(Abs(a), a)
    ensures forall k :: Divides(k, a) ==> Divides(k, Abs(a))
  {
    if a < 0 {
      DividesMultiple(Abs(a), -1);
      forall k | Divides(k, a) ensures Divides(k, Abs(a)) {
        DividesNeg(k, a);
      }
    } else {
      DividesMultiple(a, 1);
    }
  }

  /** Divisibility only sees the absolute value. */
  lemma DividesAbs(k: int, a: int)
    ensures Divides(k, Abs(a)) <==> Divides(k, a)
  {
    if a < 0 {
      if Divides(k, a) { DividesNeg(k, a); }
      if Divides(k, -a) { DividesNeg(k, -a); }
    }
  }

  /** One Euclid step keeps the common divisors. */
  lemma GcdStep(a: int, b: int)
    requires b != 0
    ensures forall k :: Divides(k, a) && Divides(k, b) <==> Divides(k, b) && Divides(k, Rem(a, b))
  {
    var t := Rem(a, b);
    DividesFactor(b, a - t);
    var q := (a - t) / b;
    assert a == t + b * q;
    forall k
      ensures Divides(k, a) && Divides(k, b) <==> Divides(k, b) && Divides(k, t)
    {
      StepKeepsDivisor(k, a, b, t, q);
    }
  }

  /** With a = t + b q, k divides a and b exactly when it divides b and t. */
  lemma StepKeepsDivisor(k: int, a: int, b: int, t: int, q: int)
    requires a == t + b * q
    ensures Divides(k, a) && Divides(k, b) <==> Divides(k, b) && Divides(k, t)
  {
    if Divides(k, a) && Divides(k, b) {
      DividesLinear(k, a, b, -q);
      assert b * -q == -(b * q);
    }
    if Divides(k, b) && Divides(k, t) {
      DividesLinear(k, t, b, q);
    }
  }

  /** d^2 - de + e^2 is never negative: four times it is (2d - e)^2 + 3e^2. */
  lemma {:induction false} NormNonNegative(d: int, e: int)
    ensures Norm(d, e) >= 0
  {
    var x := 2 * d - e;
    NormTimesFour(d, e, x);
    SquareNonNegative(x);
    SquareNonNegative(e);
  }

  lemma NormTimesFour(d: int, e: int, x: int)
    requires x == 2 * d - e
    ensures 4 * Norm(d, e) == x * x + 3 * (e * e)
  {
  }

  lemma SquareNonNegative(x: int)
    ensures x * x >= 0
  {
    if x < 0 {
      assert x * x == (-x) * (-x);
    }
  }

  // ----- properties of the sieve -----

  /** The sieve accepts exactly the coprime pairs; (0, 0) is not coprime since 2 divides 0. */
  lemma {:induction false} MayBeZPrimeIffCoprime(d: int, e: int)
    ensures MayBeZPrime(d, e) <==> Coprime(d, e)
  {
    var g := Gcd(Abs(d), Abs(e));
    DividesAbs(g, d);
    DividesAbs(g, e);
    if MayBeZPrime(d, e) {
      forall k | k > 1
        ensures !(Divides(k, d) && Divides(k, e))
      {
        if Divides(k, d) && Divides(k, e) {
          DividesAbs(k, d);
          DividesAbs(k, e);
          GcdGreatest(Abs(d), Abs(e), k);
          assert Divides(k, 1);
          DivisorBound(k, 1);
        }
      }
    } else if d == 0 && e == 0 {
      assert Divides(2, d) && Divides(2, e);
    } else {
      assert g != 0 by {
        if g == 0 {
          DividesAbs(0, d);
          DividesAbs(0, e);
        }
      }
      assert g > 1;
    }
  }

  /** The sieve does not see the signs of d and e. */
  lemma MayBeZPrimeIgnoresSigns(d: int, e: int)
    ensures MayBeZPrime(-d, e) == MayBeZPrime(d, e)
    ensures MayBeZPrime(d, -e) == MayBeZPrime(d, e)
  {
    assert Abs(-d) == Abs(d) && Abs(-e) == Abs(e);
  }

  /** Swapping d and e, or replacing (d, e) by (-d, e - d), keeps the verdict:
      both describe the same triple (k1, k2, k3) with its entries permuted. */
  lemma {:induction false} MayBeZPrimeUnderPermutation(d: int, e: int)
    ensures MayBeZPrime(e, d) == MayBeZPrime(d, e)
    ensures MayBeZPrime(-d, e - d) == MayBeZPrime(d, e)
  {
    MayBeZPrimeIffCoprime(d, e);
    MayBeZPrimeIffCoprime(e, d);
    MayBeZPrimeIffCoprime(-d, e - d);
    CoprimeUnderShear(d, e);
  }

  /** The same, with the sheared pair (-d, e - d) named (d2, e2). */
  lemma MayBeZPrimeSheared(d: int, e: int, d2: int, e2: int)
    requires d2 == -d && e2 == e - d
    ensures MayBeZPrime(d2, e2) == MayBeZPrime(d, e)
  {
    MayBeZPrimeUnderPermutation(d, e);
  }

  /** (d, e) and (-d, e - d) have the same common divisors. */
  lemma CoprimeUnderShear(d: int, e: int)
    ensures Coprime(-d, e - d) == Coprime(d, e)
  {
    var d', e' := -d, e - d;
    if Coprime(d, e) {
      forall k | k > 1
        ensures !(Divides(k, d') && Divides(k, e'))
      {
        CommonDivisorUnderShear(d, e, k);
      }
    }
    if Coprime(d', e') {
      forall k | k > 1
        ensures !(Divides(k, d) && Divides(k, e))
      {
        CommonDivisorUnderShear(d, e, k);
      }
    }
  }

  lemma CommonDivisorUnderShear(d: int, e: int, k: int)
    ensures Divides(k, d) && Divides(k, e) <==> Divides(k, -d) && Divides(k, e - d)
  {
    if Divides(k, d) && Divides(k, e) {
      DividesNeg(k, d);
      DividesLinear(k, e, d, -1);
    }
    if Divides(k, -d) && Divides(k, e - d) {
      DividesNeg(k, -d);
      assert --d == d;
      DividesLinear(k, e - d, d, 1);
    }
  }

  /** When g = gcd(|d|, |e|) exceeds one, the norm factors as g^2 times the norm of
      (d/g, e/g), so it is not prime. */
  lemma {:induction false} CommonFactorNormNotPrime(d: int, e: int)
    requires Gcd(Abs(d), Abs(e)) > 1
    ensures var g := Gcd(Abs(d), Abs(e));
      && d == g * (d / g) && e == g * (e / g)
      && Norm(d, e) == g * g * Norm(d / g, e / g)
      && !IsPrime(Norm(d, e))
  {
    var g := Gcd(Abs(d), Abs(e));
    DividesAbs(g, d);
    DividesAbs(g, e);
    DividesFactor(g, d);
    DividesFactor(g, e);
    ScaledNormNotPrime(g, d / g, e / g);
  }

  /** The norm of (g x, g y) is g^2 times the norm of (x, y), so not prime for g > 1. */
  lemma ScaledNormNotPrime(g: int, x: int, y: int)
    requires g > 1
    ensures Norm(g * x, g * y) == g * g * Norm(x, y)
    ensures !IsPrime(Norm(g * x, g * y))
  {
    NormScale(g, x, y);
    NormNonNegative(x, y);
    SquareMultipleNotPrime(g, Norm(x, y));
  }

  /** g^2 m is never prime for g > 1 and m >= 0. */
  lemma SquareMultipleNotPrime(g: int, m: int)
    requires g > 1 && m >= 0
    ensures !IsPrime(g * g * m)
  {
    if m > 0 {
      var gm := g * m;
      MulAtLeast(g, m);
      assert g * g * m == g * gm;
      ProductNotPrime(g, gm);
    }
  }

  lemma NormScale(g: int, d: int, e: int)
    ensures Norm(g * d, g * e) == g * g * Norm(d, e)
  {
    assert (g * d) * (g * d) == (g * g) * (d * d);
    assert (g * d) * (g * e) == (g * g) * (d * e);
    assert (g * e) * (g * e) == (g * g) * (e * e);
  }

  /** The sieve never rejects a pair whose norm is prime. */
  lemma PrimeNormPasses(d: int, e: int)
    requires IsPrime(Norm(d, e))
    ensures MayBeZPrime(d, e)
  {
    if !MayBeZPrime(d, e) && (d != 0 || e != 0) {
      CommonFactorNormNotPrime(d, e);
    }
  }
}

=== FILE: number_theory.dfy ===
/**
 Integer facts shared by the sieve: divisibility, primality, powers, the exact
 floor square root, and C#'s truncating remainder operator.
 */
module NumberTheory {

  datatype Option<T> = None | Some(value: T)

  /** C#'s `int` and `long`. */
  newtype int32 = x: int | -0x8000_0000 <= x < 0x8000_0000
  newtype int64 = x: int | -0x8000_0000_0000_0000 <= x < 0x8000_0000_0000_0000

  /** The largest `long`. */
  const Int64Max: int := 0x7FFF_FFFF_FFFF_FFFF

  function Abs(x: int): nat
  {
    if x < 0 then -x else x
  }

  /** d divides a; zero divides only zero. */
  predicate Divides(d: int, a: int)
  {
    if d == 0 then a == 0 else a % d == 0
  }

  ghost predicate IsPrime(n: int)
  {
    n >= 2 && forall d :: 2 <= d < n ==> !Divides(d, n)
  }

  /** a^k for k >= 0. */
  function Pow(a: int, k: nat): int
  {
    if k == 0 then 1 else a * Pow(a, k - 1)
  }

  /** The remainder of C#'s `%`: division truncates toward zero, so the
      remainder takes the sign of the dividend. */
  function Rem(a: int, b: int): (r: int)
    requires b != 0
    ensures Abs(r) < Abs(b)
    ensures 0 <= a ==> r == a % b
    ensures a < 0 ==> r <= 0
    ensures Divides(b, a - r)
  {
    if a >= 0 then
      ModIsMultiple(a, b);
      a % b
    else
      ModIsMultiple(-a, b);
      DividesNeg(b, -a - (-a) % b);
      -((-a) % b)
  }

  /** floor(sqrt(n)), by halving: the root of n is twice the root of n/4, or one more. */
  function FloorSqrt(n: nat): (r: nat)
    ensures r * r <= n < (r + 1) * (r + 1)
  {
    if n == 0 then 0
    else
      var s := FloorSqrt(n / 4);
      SqrtStep(n, s);
      if (2 * s + 1) * (2 * s + 1) <= n then 2 * s + 1 else 2 * s
  }

  /** If s is the root of n / 4, then 2s or 2s + 1 is the root of n. */
  lemma SqrtStep(n: nat, s: nat)
    requires s * s <= n / 4 < (s + 1) * (s + 1)
    ensures (2 * s) * (2 * s) <= n < (2 * s + 2) * (2 * s + 2)
  {
    var q := n / 4;
    var lo, hi := s * s, (s + 1) * (s + 1);
    assert 4 * q <= n < 4 * q + 4;
    assert 4 * lo <= n < 4 * hi;
    assert (2 * s) * (2 * s) == 4 * lo;
    assert (2 * s + 2) * (2 * s + 2) == 4 * hi;
  }

  predicate IsSquare(n: nat)
  {
    FloorSqrt(n) * FloorSqrt(n) == n
  }

  // ----- squares -----

  lemma SquareMonotone(a: nat, b: nat)
    requires a <= b
    ensures a * a <= b * b
  {
    assert a * a <= a * b <= b * b;
  }

  lemma SquareStrictMonotone(a: nat, b: nat)
    requires a < b
    ensures a * a < b * b
  {
    assert a * a <= a * b < b * b;
  }

  /** The square of x is a perfect square whose floor root is |x|. */
  lemma SquareRootOfSquare(x: int)
    ensures x * x >= 0
    ensures IsSquare(x * x) && (x == FloorSqrt(x * x) || x == -(FloorSqrt(x * x) as int))
  {
    FloorSqrtOfSquare(x);
    SquareOfNegation(Abs(x), x);
  }

  /** x and -x have the same square. */
  lemma SquareOfNegation(x: int, s: int)
    requires x == s || x == -s
    ensures x * x == s * s
  {
    if x == -s {
      assert x * x == (-s) * (-s) == s * s;
    }
  }

  /** The bracket r*r <= n < (r+1)*(r+1) determines r. */
  lemma {:induction false} FloorSqrtUnique(n: nat, r: nat)
    requires r * r <= n < (r + 1) * (r + 1)
    ensures r == FloorSqrt(n)
  {
    var s := FloorSqrt(n);
    if r < s {
      SquareMonotone(r + 1, s);
    } else if s < r {
      SquareMonotone(s + 1, r);
    }
  }

  lemma FloorSqrtOfSquare(x: int)
    ensures FloorSqrt(x * x) == Abs(x)
  {
    var a := Abs(x);
    assert a * a == x * x;
    assert (a + 1) * (a + 1) == a * a + 2 * a + 1;
    FloorSqrtUnique(x * x, a);
  }

  /** x^2 = delta makes delta a perfect square with floor square root |x|. */
  lemma SquareRootsOf(x: int, delta: int)
    requires x * x == delta
    ensures delta >= 0 && IsSquare(delta)
    ensures x == FloorSqrt(delta) || x == -(FloorSqrt(delta) as int)
  {
    SquareRootOfSquare(x);
  }

  lemma FloorSqrtIsSquare(n: nat)
    ensures IsSquare(n) <==> exists r: nat :: r * r == n
  {
    if r: nat :| r * r == n {
      FloorSqrtUnique(n, r);
    }
  }

  // ----- divisibility -----

  lemma MulAtLeast(d: int, t: int)
    requires d > 0 && t > 0
    ensures d * t >= d
  {
    assert d * t == d * (t - 1) + d;
  }

  lemma MultipleMod(d: int, m: int)
    requires d != 0
    ensures (d * m) % d == 0
  {
    var x := d * m;
    var q, r := x / d, x % d;
    assert x == d * q + r;
    var t := m - q;
    MultiplyDifference(d, m, q);
    if t != 0 {
      NonZeroMultipleAtLeast(d, t);
    }
  }

  lemma MultiplyDifference(d: int, m: int, q: int)
    ensures d * (m - q) == d * m - d * q
  {
  }

  /** A non-zero multiple of d is at least |d| in absolute value. */
  lemma NonZeroMultipleAtLeast(d: int, t: int)
    requires d != 0 && t != 0
    ensures Abs(d * t) >= Abs(d)
  {
    assert Abs(d) * Abs(t) == Abs(d * t);
    MulAtLeast(Abs(d), Abs(t));
  }

  /** Euclidean remainders are unique. */
  lemma ModUnique(x: int, m: int, r: int, q: int)
    requires m > 0 && 0 <= r < m && x == m * q + r
    ensures r == x % m
  {
    var q' := x / m;
    var r' := x % m;
    assert m * (q - q') == r' - r;
    if q - q' > 0 {
      MulAtLeast(m, q - q');
    } else if q - q' < 0 {
      MulAtLeast(m, q' - q);
    }
  }

  /** a is a multiple of b plus C#'s remainder of a by b. */
  lemma Decompose(a: int, b: int) returns (k: int)
    requires b != 0
    ensures a == b * k + Rem(a, b)
  {
    var t := Rem(a, b);
    DividesFactor(b, a - t);
    k := (a - t) / b;
  }

  lemma DividesMultiple(d: int, m: int)
    ensures Divides(d, d * m)
  {
    if d != 0 {
      MultipleMod(d, m);
    }
  }

  /** A divisor is a factor: a == d * (a / d). */
  lemma DividesFactor(d: int, a: int)
    requires d != 0 && Divides(d, a)
    ensures a == d * (a / d)
  {
  }

  lemma ModIsMultiple(a: int, b: int)
    requires b != 0
    ensures Divides(b, a - a % b)
  {
    assert a - a % b == b * (a / b);
    DividesMultiple(b, a / b);
  }

  lemma DividesNeg(d: int, a: int)
    requires Divides(d, a)
    ensures Divides(d, -a)
  {
    if d != 0 {
      DividesFactor(d, a);
      assert -a == d * (-(a / d));
      DividesMultiple(d, -(a / d));
    }
  }

  /** Common divisors are kept by integer linear combinations. */
  lemma DividesLinear(k: int, x: int, y: int, q: int)
    requires Divides(k, x) && Divides(k, y)
    ensures Divides(k, x + y * q)
  {
    if k != 0 {
      DividesFactor(k, x);
      DividesFactor(k, y);
      var s, t := x / k, y / k;
      assert x + y * q == k * s + (k * t) * q;
      assert x + y * q == k * (s + t * q);
      DividesMultiple(k, s + t * q);
    }
  }

  lemma DividesTransitive(a: int, b: int, c: int)
    requires Divides(a, b) && Divides(b, c)
    ensures Divides(a, c)
  {
    if a != 0 && b != 0 {
      DividesFactor(a, b);
      DividesFactor(b, c);
      var s, t := b / a, c / b;
      assert c == (a * s) * t == a * (s * t);
      DividesMultiple(a, s * t);
    } else if a != 0 {
      assert c == 0;
    }
  }

  /** A divisor of a positive number is at most that number. */
  lemma DivisorBound(d: int, a: int)
    requires 0 < d && 0 < a && Divides(d, a)
    ensures d <= a
  {
    DividesFactor(d, a);
    var q := a / d;
    assert q >= 1;
    MulAtLeast(d, q);
  }

  // ----- smallest divisors and prime factors -----

  /** The least divisor of n that is at least k. */
  function SmallestDivisorFrom(n: int, k: int): (r: int)
    requires 2 <= k <= n
    requires forall d :: 2 <= d < k ==> !Divides(d, n)
    decreases n - k
    ensures k <= r <= n && Divides(r, n)
    ensures forall d :: 2 <= d < r ==> !Divides(d, n)
  {
    if Divides(k, n) then k
    else
      assert k != n by { if k == n { MultipleMod(n, 1); } }
      SmallestDivisorFrom(n, k + 1)
  }

  function SmallestDivisor(n: int): (r: int)
    requires n >= 2
    ensures 2 <= r <= n && Divides(r, n)
    ensures forall d :: 2 <= d < r ==> !Divides(d, n)
  {
    SmallestDivisorFrom(n, 2)
  }

  lemma {:induction false} SmallestDivisorIsPrime(n: int)
    requires n >= 2
    ensures IsPrime(SmallestDivisor(n))
  {
    var f := SmallestDivisor(n);
    forall d | 2 <= d < f
      ensures !Divides(d, f)
    {
      if Divides(d, f) {
        DividesTransitive(d, f, n);
      }
    }
  }

  /** A composite n has its least prime factor f with f * f <= n. */
  lemma {:induction false} CompositeHasSmallPrimeFactor(n: int)
    requires n >= 2 && !IsPrime(n)
    ensures var f := SmallestDivisor(n); IsPrime(f) && f * f <= n && f < n
  {
    var f := SmallestDivisor(n);
    SmallestDivisorIsPrime(n);
    var d :| 2 <= d < n && Divides(d, n);
    DividesFactor(f, n);
    var m := n / f;
    CofactorAtLeast(n, f, m);
    MulLeft(f, f, m);
  }

  /** With n = f m and no divisor of n in [2, f), the cofactor m is at least f. */
  lemma CofactorAtLeast(n: int, f: int, m: int)
    requires 2 <= f < n && n == f * m
    requires forall d :: 2 <= d < f ==> !Divides(d, n)
    ensures 2 <= m && f <= m
  {
    if m <= 0 {
      MulLeft(f, m, 0);
    }
    assert m != 1;
    DividesMultiple(m, f);
    MultiplyCommutes(m, f);
  }

  lemma MultiplyCommutes(a: int, b: int)
    ensures a * b == b * a
  {
  }

  lemma MulLeft(f: int, a: int, b: int)
    requires f >= 0 && a <= b
    ensures f * a <= f * b
  {
    assert f * b - f * a == f * (b - a);
  }

  /** A product of two factors, each at least 2, is not prime. */
  lemma ProductNotPrime(a: int, b: int)
    requires a >= 2 && b >= 2
    ensures !IsPrime(a * b)
  {
    DividesMultiple(a, b);
    assert a * b >= 2 * a > a;
  }

  /** Every prime from 5 up lies in a residue class 6k +- 1. */
  lemma PrimeModSix(p: int)
    requires IsPrime(p) && p >= 5
    ensures p % 6 == 1 || p % 6 == 5
  {
    var k, r := p / 6, p % 6;
    assert p == 6 * k + r;
    if r == 0 || r == 2 || r == 4 {
      DividesWitness(2, p, 3 * k + r / 2);
    } else if r == 3 {
      DividesWitness(3, p, 2 * k + 1);
    }
  }

  lemma DividesWitness(d: int, a: int, q: int)
    requires a == d * q
    ensures Divides(d, a)
  {
    DividesMultiple(d, q);
  }

  // ----- powers -----

  lemma {:induction false} PowPositive(a: int, k: nat)
    requires a >= 1
    ensures Pow(a, k) >= 1
  {
    if k > 0 {
      PowPositive(a, k - 1);
      MulAtLeast(Pow(a, k - 1), a);
    }
  }

  lemma {:induction false} PowMonotone(a: int, i: nat, j: nat)
    requires a >= 1 && i <= j
    ensures 1 <= Pow(a, i) <= Pow(a, j)
    decreases j
  {
    if i == j {
      PowPositive(a, i);
    } else {
      PowMonotone(a, i, j - 1);
      MulAtLeast(Pow(a, j - 1), a);
    }
  }

  /** A power of a base of at least b and an exponent of at least 2 is at least b*b. */
  lemma {:induction false} PowAtLeastSquare(a: int, k: nat, b: int)
    requires 1 <= b <= a && k >= 2
    ensures b * b <= Pow(a, k)
  {
    PowMonotone(a, 2, k);
    assert Pow(a, 1) == a;
    assert Pow(a, 2) == a * a;
    SquareMonotone(b, a);
  }

  // ----- the 6k +- 1 wheel -----

  /** Residues 1 and 5 modulo 6: the integers divisible by neither 2 nor 3. */
  predicate OnWheel(x: int)
  {
    x % 6 == 1 || x % 6 == 5
  }

  /** A number on the wheel is odd and not a multiple of 3, so its prime factors
      are at least 5. */
  lemma WheelPrimeFactorAtLeastFive(c: int, f: int)
    requires OnWheel(c) && IsPrime(f) && Divides(f, c)
    ensures c % 2 == 1 && f >= 5
  {
    var q := c / 6;
    if c % 6 == 1 {
      ModUnique(c, 2, 1, 3 * q);
      ModUnique(c, 3, 1, 2 * q);
    } else {
      ModUnique(c, 2, 1, 3 * q + 2);
      ModUnique(c, 3, 2, 2 * q + 1);
    }
    assert !IsPrime(4) by {
      assert Divides(2, 4);
    }
  }

  /** Beyond 3, a number off the wheel is divisible by 2 or 3 and so is not prime. */
  lemma OffWheelNotPrime(x: int)
    requires x >= 5 && !OnWheel(x)
    ensures !IsPrime(x)
  {
    if IsPrime(x) {
      PrimeModSix(x);
    }
  }

  /** One round of 6k +- 1 trial division: if no d in [2, i) divides n, n is odd and
      not a multiple of 3, and neither i nor i + 2 divides n (i = 6k + 5), then no
      d in [2, i + 6) divides n. */
  lemma TrialDivisionStep(n: int, i: int)
    requires i >= 5 && i % 6 == 5
    requires !Divides(2, n) && !Divides(3, n)
    requires forall d :: 2 <= d < i ==> !Divides(d, n)
    requires !Divides(i, n) && !Divides(i + 2, n)
    ensures forall d :: 2 <= d < i + 6 ==> !Divides(d, n)
  {
    var k := i / 6;
    assert i == 6 * k + 5;
    forall d | i <= d < i + 6
      ensures !Divides(d, n)
    {
      if d == i + 1 || d == i + 3 || d == i + 5 {
        DividesWitness(2, d, 3 * k + (d - i + 5) / 2);
        if Divides(d, n) { DividesTransitive(2, d, n); }
      } else if d == i + 4 {
        DividesWitness(3, d, 2 * k + 3);
        if Divides(d, n) { DividesTransitive(3, d, n); }
      }
    }
  }

  /** The rounds advance by 6 and stay at 5 mod 6. */
  lemma AddSixKeepsResidue(i: int)
    requires i % 6 == 5
    ensures (i + 6) % 6 == 5
  {
    var k := i / 6;
    assert i + 6 == 6 * (k + 1) + 5;
  }

  /** Trial division up to the square root suffices. */
  lemma NoDivisorBelowRootMeansPrime(n: int, i: int)
    requires n >= 2 && i >= 0 && n < i * i
    requires forall d :: 2 <= d < i ==> !Divides(d, n)
    ensures IsPrime(n)
  {
    if !IsPrime(n) {
      CompositeHasSmallPrimeFactor(n);
      var f := SmallestDivisor(n);
      if f >= i {
        SquareMonotone(i, f);
      }
    }
  }
  /** The trial-division rounds i = 5, 11, 17, ... while i <= limit: the first i for which i or
      i + 2 divides n, or None when no round hits, in which case nothing in
      [2, limit] divides n. */
  method SixKRounds(n: int, limit: int) returns (hit: Option<int>)
    requires !Divides(2, n) && !Divides(3, n)
    ensures hit.Some? ==> 5 <= hit.value <= limit && (n % hit.value == 0 || n % (hit.value + 2) == 0)
    ensures hit.None? ==> forall d :: 2 <= d <= limit ==> !Divides(d, n)
  {
    var i := 5;
    NoDivisorBelowFive(n);
    while i <= limit
      invariant i >= 5 && i % 6 == 5
      invariant forall d :: 2 <= d < i ==> !Divides(d, n)
    {
      if n % i == 0 || n % (i + 2) == 0 {
        return Some(i);
      }
      TrialDivisionStep(n, i);
      AddSixKeepsResidue(i);
      i := i + 6;
    }
    return None;
  }

  /** The rounds up to floor(sqrt(n)) find a divisor exactly when n is composite. */
  lemma RoundsDecide(n: int, limit: int, hit: Option<int>)
    requires n >= 5 && limit >= 0 && limit * limit <= n < (limit + 1) * (limit + 1)
    requires hit.Some? ==> 5 <= hit.value <= limit && (n % hit.value == 0 || n % (hit.value + 2) == 0)
    requires hit.None? ==> forall d :: 2 <= d <= limit ==> !Divides(d, n)
    ensures hit.None? <==> IsPrime(n)
  {
    if hit.Some? {
      DivisorFound(n, limit, hit.value);
    } else {
      NoDivisorBelowRootMeansPrime(n, limit + 1);
    }
  }

  /** Trial division by 6k +- 1 up to a limit with limit^2 <= n < (limit + 1)^2
      decides primality of an n >= 5 that neither 2 nor 3 divides. */
  method DecideBySixKRounds(n: int, limit: int) returns (r: bool)
    requires n >= 5 && n % 2 != 0 && n % 3 != 0
    requires limit >= 0 && limit * limit <= n < (limit + 1) * (limit + 1)
    ensures r <==> IsPrime(n)
  {
    var hit := SixKRounds(n, limit);
    r := hit.None?;
    RoundsDecide(n, limit, hit);
  }

  /** A hit in a round of trial division, i or i + 2 dividing m with i at most
      floor(sqrt(m)), proves m composite. */
  lemma DivisorFound(m: int, limit: int, i: int)
    requires 5 <= i <= limit && limit * limit <= m
    requires m % i == 0 || m % (i + 2) == 0
    ensures !IsPrime(m)
  {
    RoundBelowN(m, limit, i);
    if m % i == 0 {
      assert Divides(i, m);
    } else {
      assert Divides(i + 2, m);
    }
  }

  /** A number that neither 2 nor 3 divides has no divisor in [2, 5). */
  lemma NoDivisorBelowFive(m: int)
    requires !Divides(2, m) && !Divides(3, m)
    ensures forall d :: 2 <= d < 5 ==> !Divides(d, m)
  {
    if Divides(4, m) {
      assert Divides(2, 4);
      DividesTransitive(2, 4, m);
    }
  }

  lemma RoundBelowN(m: int, limit: int, i: int)
    requires 5 <= i <= limit && limit * limit <= m
    ensures i + 2 < m
  {
    MulAtLeast(limit, limit - 4);
    assert limit * limit == limit * (limit - 4) + 4 * limit;
  }
}

=== FILE: perfect_square_sieve.dfy ===
/**
 The perfect-power filter: is n = a^k for an integer base a >= 13 and an
 exponent k >= 2?  Squares are decided exactly; odd exponents are tried
 around a floating-point estimate of the k-th root, and every hit is
 confirmed by exact exponentiation.
 */
module PerfectSquareSieve {
  import opened NumberTheory

  /** One floating-point estimate of the k-th root of n: whether it fell below
      the 12.95 cut-off, and its value rounded to the nearest integer. */
  datatype RootEstimate = RootEstimate(belowCutoff: bool, rounded: nat)

  /** The floating-point quantities the filter consults, taken as inputs:
      maxK(n) is the float log(n) / log(13) rounded down (the loop runs while
      k <= maxK), and root(n, k) is the estimate of n^(1/k). */
  datatype PowerEstimates = PowerEstimates(maxK: nat -> int, root: (nat, nat) -> RootEstimate)

  /** n = a^k for some base a >= 13 and exponent k >= 2. */
  ghost predicate IsPowerWithBaseAtLeast13(n: int)
  {
    exists a: nat, k: nat :: 13 <= a && 2 <= k && Pow(a, k) == n
  }

  /** The loop of EqualsPow from step i on, with p = a^i so far: multiply by a,
      give up as soon as the partial product exceeds n, compare at the end. */
  function EqualsPowFrom(n: nat, a: nat, k: nat, i: nat, p: nat): (r: bool)
    requires i <= k && p == Pow(a, i)
    decreases k - i
    ensures r <==> Pow(a, k) == n
  {
    if i == k then p == n
    else if p * a > n then
      PowMonotone(a, i + 1, k);
      false
    else
      EqualsPowFrom(n, a, k, i + 1, p * a)
  }

  /** Exact test a^k == n with early exit. */
  function EqualsPow(n: nat, a: nat, k: nat): (r: bool)
    ensures r <==> Pow(a, k) == n
  {
    EqualsPowFrom(n, a, k, 0, 1)
  }

  /** The loop over odd exponents k, k + 2, ... up to maxK. Each rounded root
      estimate r >= 13 is checked exactly, together with r - 1 (only when
      r > 13) and r + 1. */
  function OddExponentScan(n: nat, k: nat, maxK: int, root: (nat, nat) -> RootEstimate): (r: bool)
    requires k >= 3
    decreases if k <= maxK then maxK - k + 1 else 0
    ensures r ==> IsPowerWithBaseAtLeast13(n)
  {
    if k > maxK then false
    else
      var est := root(n, k);
      if est.belowCutoff then false
      else if est.rounded < 13 then OddExponentScan(n, k + 2, maxK, root)
      else
        var r := est.rounded;
        if EqualsPow(n, r, k) then true
        else if r > 13 && EqualsPow(n, r - 1, k) then true
        else if EqualsPow(n, r + 1, k) then true
        else OddExponentScan(n, k + 2, maxK, root)
  }

  /** The filter. Below 13^2 nothing qualifies; a square with a root of at
      least 13 always does; otherwise the odd exponents decide. The early
      return that answers true for n = 3, 5 and 7 sits behind the n < 169
      guard, so it is never reached and has no counterpart here. */
  function IsPerfectPowerWithBaseAtLeast13(n: nat, est: PowerEstimates): (r: bool)
    ensures r ==> IsPowerWithBaseAtLeast13(n)
    ensures n < 169 ==> !r
    ensures n >= 169 && IsSquare(n) ==> r
  {
    if n < 169 then false
    else
      var s := FloorSqrt(n);
      if s >= 13 && s * s == n then
        assert Pow(s, 2) == n by { assert Pow(s, 1) == s; }
        true
      else
        assert IsSquare(n) ==> s >= 13 by {
          if s < 13 { SquareMonotone(s, 12); }
        }
        OddExponentScan(n, 3, est.maxK(n), est.root)
  }

  /** The two correction loops after the float seed: step up while (r+1)^2 <= n,
      then down while r^2 > n. */
  method CorrectedSquareRoot(n: nat, seed: nat) returns (r: nat)
    ensures r * r <= n < (r + 1) * (r + 1)
    ensures r == FloorSqrt(n)
  {
    r := seed;
    while (r + 1) * (r + 1) <= n
      decreases n - r
    {
      r := r + 1;
    }
    while r * r > n
      invariant n < (r + 1) * (r + 1)
      decreases r
    {
      r := r - 1;
    }
    FloorSqrtUnique(n, r);
  }

  // ----- properties -----

  /** Nothing below 13^2 is a power with base at least 13. */
  lemma PowerWithBaseAtLeast13IsLarge(n: int)
    requires IsPowerWithBaseAtLeast13(n)
    ensures n >= 169
  {
    var a: nat, k: nat :| 13 <= a && 2 <= k && Pow(a, k) == n;
    PowAtLeastSquare(a, k, 13);
  }

  /** The filter is exact on squares: a square answers true exactly when its
      root is at least 13. */
  lemma SquaresDecidedExactly(a: nat, est: PowerEstimates)
    ensures IsPerfectPowerWithBaseAtLeast13(a * a, est) <==> a >= 13
  {
    FloorSqrtOfSquare(a);
    if a >= 13 {
      SquareMonotone(13, a);
    } else {
      SquareMonotone(a, 12);
    }
  }
}

=== FILE: prime_list.dfy ===
/**
 Prime enumeration by a 6k +- 1 sieve over a packed bit set, and the two
 trial-division tests for 32- and 64-bit integers.
 */
module PrimeList {
  import opened NumberTheory

  /** A bit array packed into 32-bit words: bit i is bit i % 32 of word i / 32. */
  datatype BitSet = BitSet(data: seq<bv32>)
  {
    function Size(): nat
    {
      32 * |data|
    }

    function Get(i: nat): bool
      requires i < Size()
    {
      BitOf(data[i / 32], Offset(i))
    }

    /** Sets or clears bit i inside its word; no other bit changes. */
    function Set(i: nat, value: bool): (b: BitSet)
      requires i < Size()
      ensures b.Size() == Size()
      ensures b.Get(i) == value
      ensures forall j :: 0 <= j < Size() && j != i ==> b.Get(j) == Get(j)
    {
      SetReads(this, i, value);
      BitSet(data[i / 32 := WithBit(data[i / 32], Offset(i), value)])
    }
  }

  /** The position of bit i inside its word: the low five bits of i. */
  function Offset(i: nat): bv5
  {
    (i % 32) as bv5
  }

  /** Bit k of word w. */
  function BitOf(w: bv32, k: bv5): bool
  {
    w & (1 << k) != 0
  }

  /** Word w with bit k set to value. */
  function WithBit(w: bv32, k: bv5, value: bool): bv32
  {
    if value then w | (1 << k) else w & !(1 << k)
  }

  lemma SetReads(s: BitSet, i: nat, value: bool)
    requires i < s.Size()
    ensures var b := BitSet(s.data[i / 32 := WithBit(s.data[i / 32], Offset(i), value)]);
      forall j :: 0 <= j < s.Size() ==> b.Get(j) == (if j == i then value else s.Get(j))
  {
    var b := BitSet(s.data[i / 32 := WithBit(s.data[i / 32], Offset(i), value)]);
    forall j | 0 <= j < s.Size()
      ensures b.Get(j) == (if j == i then value else s.Get(j))
    {
      if j / 32 == i / 32 {
        WithBitReads(s.data[i / 32], Offset(i), Offset(j), value);
        if j != i {
          OffsetsDiffer(i, j);
        }
      } else {
        assert b.data[j / 32] == s.data[j / 32];
      }
    }
  }

  /** Two different bits of one word sit at different offsets. */
  lemma OffsetsDiffer(i: nat, j: nat)
    requires i / 32 == j / 32 && i != j
    ensures Offset(i) != Offset(j)
  {
    assert i % 32 != j % 32;
    Bv5RoundTrip(i % 32);
    Bv5RoundTrip(j % 32);
  }

  lemma Bv5RoundTrip(a: nat)
    requires a < 32
    ensures (a as bv5) as int == a
  {
  }

  lemma WithBitReads(w: bv32, k: bv5, j: bv5, value: bool)
    ensures BitOf(WithBit(w, k, value), j) == (if j == k then value else BitOf(w, j))
  {
    if value {
      SetBitReads(w, k, j);
    } else {
      ClearBitReads(w, k, j);
    }
  }

  /** Or-ing in the mask of bit k sets bit k and keeps every other bit of w. */
  lemma SetBitReads(w: bv32, k: bv5, j: bv5)
    ensures BitOf(w | (1 << k), j) == (j == k || BitOf(w, j))
  {
  }

  /** And-ing with the complement of the mask of bit k clears bit k and keeps every other bit of w. */
  lemma ClearBitReads(w: bv32, k: bv5, j: bv5)
    ensures BitOf(w & !(1 << k), j) == (j != k && BitOf(w, j))
  {
  }

  /** A fresh bit set for n bits: n rounded up to whole 32-bit words, all clear. */
  function NewBitSet(n: int): (b: BitSet)
    requires n >= -31
    ensures n <= b.Size()
    ensures forall i :: 0 <= i < b.Size() ==> !b.Get(i)
  {
    var b := BitSet(seq((n + 31) / 32, _ => 0));
    assert forall i :: 0 <= i < b.Size() ==> !b.Get(i) by {
      forall i | 0 <= i < b.Size()
        ensures !b.Get(i)
      {
        assert !BitOf(0, Offset(i));
      }
    }
    b
  }

  // ----- the 6k +- 1 wheel -----

  /** The wheel state (p, step): p advances by step, and step alternates between 2 and 4, starting from (5, 2). */
  predicate WheelState(p: int, step: int)
  {
    p >= 5 && ((p % 6 == 5 && step == 2) || (p % 6 == 1 && step == 4))
  }

  /** Numbers on the wheel are odd. */
  lemma WheelIsOdd(p: int, step: int)
    requires WheelState(p, step)
    ensures p % 2 == 1
  {
    var k := p / 6;
    assert p == 6 * k + p % 6;
    if p % 6 == 5 {
      ModUnique(p, 2, 1, 3 * k + 2);
    } else {
      ModUnique(p, 2, 1, 3 * k);
    }
  }

  /** One wheel step reaches the next integer on the 6k +- 1 wheel, skipping none. */
  function NextWheel(p: int, step: int): (r: (int, int))
    requires WheelState(p, step)
    ensures WheelState(r.0, r.1) && p < r.0 && OnWheel(r.0)
    ensures forall x :: p < x < r.0 ==> !OnWheel(x)
  {
    (p + step, 6 - step)
  }

  /** c is an odd multiple of f that is at least f^2: the cells the sieve marks for f. */
  predicate OddMultipleFrom(c: int, f: int)
  {
    f >= 1 && c % f == 0 && c % 2 == 1 && f * f <= c
  }

  /** Every bit of the sieve up to n that is set belongs to a composite. */
  ghost predicate MarksComposite(sieve: BitSet, n: int)
  {
    forall q :: 0 <= q <= n && q < sieve.Size() && sieve.Get(q) ==> !IsPrime(q)
  }

  /** Every odd multiple c <= n, c >= f^2, of a prime 5 <= f < p is marked. */
  ghost predicate MarkedBelow(sieve: BitSet, n: int, p: int)
  {
    forall f, c :: 5 <= f < p && IsPrime(f) && c <= n && c < sieve.Size() && OddMultipleFrom(c, f) ==> sieve.Get(c)
  }

  /** The first loop of PrimesUpTo: for each wheel number p <= limit that is still
      unmarked, mark p*p, p*p + 2p, p*p + 4p, ... up to n. Afterwards a wheel
      number up to n is marked exactly when it is composite. */
  method SieveWheelComposites(sieve0: BitSet, n: int, limit: nat) returns (sieve: BitSet)
    requires n < sieve0.Size()
    requires forall i :: 0 <= i < sieve0.Size() ==> !sieve0.Get(i)
    requires n >= 0 ==> limit * limit <= n < (limit + 1) * (limit + 1)
    requires n < 0 ==> limit == 0
    ensures sieve.Size() == sieve0.Size()
    ensures forall c :: 5 <= c <= n && OnWheel(c) ==> (sieve.Get(c) <==> !IsPrime(c))
  {
    sieve := sieve0;
    var p, step := 5, 2;
    while p <= limit
      invariant WheelState(p, step)
      invariant sieve.Size() == sieve0.Size()
      invariant MarksComposite(sieve, n)
      invariant MarkedBelow(sieve, n, p)
    {
      assert p <= n by { MulAtLeast(limit, limit); }
      ghost var before := sieve;
      if !sieve.Get(p) {
        WheelIsOdd(p, step);
        sieve := MarkOddMultiples(sieve, n, p);
        MarkedBelowGrows(before, sieve, n, p);
      }
      var next := NextWheel(p, step);
      forall f | p < f < next.0
        ensures !IsPrime(f)
      {
        OffWheelNotPrime(f);
      }
      MarkedBelowAdvance(sieve, n, p, next.0);
      p, step := next.0, next.1;
    }
    forall c | 5 <= c <= n && OnWheel(c) && !IsPrime(c)
      ensures sieve.Get(c)
    {
      CompositeOnWheelIsMarked(sieve, n, p, limit, c);
    }
  }

  /** Setting more bits keeps the coverage. */
  lemma MarkedBelowGrows(s0: BitSet, s: BitSet, n: int, p: int)
    requires s.Size() == s0.Size()
    requires MarkedBelow(s0, n, p)
    requires forall i :: 0 <= i < s.Size() && s0.Get(i) ==> s.Get(i)
    ensures MarkedBelow(s, n, p)
  {
  }

  /** The coverage moves from p to the next wheel number once the multiples of p
      are marked whenever p is prime; nothing in between is prime. */
  lemma MarkedBelowAdvance(s: BitSet, n: int, p: int, next: int)
    requires 5 <= p <= n < s.Size()
    requires MarkedBelow(s, n, p) && MarksComposite(s, n)
    requires s.Get(p) || forall c :: c <= n && c < s.Size() && OddMultipleFrom(c, p) ==> s.Get(c)
    requires forall f :: p < f < next ==> !IsPrime(f)
    ensures MarkedBelow(s, n, next)
  {
    forall f, c | 5 <= f < next && IsPrime(f) && c <= n && c < s.Size() && OddMultipleFrom(c, f)
      ensures s.Get(c)
    {
      if f == p {
        // p is prime, so MarksComposite leaves it unmarked and its multiples were marked
        assert !s.Get(p);
      } else {
        assert f < p;
      }
    }
  }

  /** The inner loop: q runs over p*p, p*p + 2p, ... while q <= n. */
  method MarkOddMultiples(sieve0: BitSet, n: int, p: int) returns (sieve: BitSet)
    requires 5 <= p && p % 2 == 1 && n < sieve0.Size()
    requires MarksComposite(sieve0, n)
    ensures sieve.Size() == sieve0.Size()
    ensures MarksComposite(sieve, n)
    ensures forall i :: 0 <= i < sieve.Size() && sieve0.Get(i) ==> sieve.Get(i)
    ensures forall c :: c <= n && c < sieve.Size() && OddMultipleFrom(c, p) ==> sieve.Get(c)
  {
    sieve := sieve0;
    var q := p * p;
    ghost var m := p;
    DividesMultiple(p, p);
    OddSquare(p);
    while q <= n
      invariant sieve.Size() == sieve0.Size()
      invariant MarksComposite(sieve, n)
      invariant forall i :: 0 <= i < sieve.Size() && sieve0.Get(i) ==> sieve.Get(i)
      invariant m >= p && q == p * m && q % 2 == 1 && Divides(p, q)
      invariant forall c :: c < q && c <= n && c < sieve.Size() && OddMultipleFrom(c, p) ==> sieve.Get(c)
      decreases n - q
    {
      ProductNotPrime(p, m);
      MarkKeepsInvariants(sieve0, sieve, n, p, q);
      sieve := sieve.Set(q, true);
      DividesLinear(p, q, p, 2);
      assert p * (m + 2) == p * m + 2 * p;
      assert (q + 2 * p) % 2 == 1 by { OddPlusEven(q, p); }
      q := q + 2 * p;
      m := m + 2;
    }
  }

  /** Marking the composite q = p*m keeps every invariant of the inner loop and
      extends its coverage to the next odd multiple q + 2p. */
  lemma MarkKeepsInvariants(sieve0: BitSet, sieve: BitSet, n: int, p: int, q: int)
    requires p >= 1 && p % 2 == 1 && q % 2 == 1 && Divides(p, q)
    requires 0 <= q <= n < sieve.Size() == sieve0.Size() && !IsPrime(q)
    requires MarksComposite(sieve, n)
    requires forall i :: 0 <= i < sieve.Size() && sieve0.Get(i) ==> sieve.Get(i)
    requires forall c :: c < q && c <= n && c < sieve.Size() && OddMultipleFrom(c, p) ==> sieve.Get(c)
    ensures var s := sieve.Set(q, true);
      && MarksComposite(s, n)
      && (forall i :: 0 <= i < s.Size() && sieve0.Get(i) ==> s.Get(i))
      && (forall c :: c < q + 2 * p && c <= n && c < s.Size() && OddMultipleFrom(c, p) ==> s.Get(c))
  {
    var s := sieve.Set(q, true);
    MarkExtendsCoverage(sieve, s, n, p, q);
    MarkKeepsEarlier(sieve0, sieve, s, q);
    MarkKeepsComposite(sieve, s, n, q);
  }

  lemma MarkExtendsCoverage(sieve: BitSet, s: BitSet, n: int, p: int, q: int)
    requires p >= 1 && p % 2 == 1 && q % 2 == 1 && Divides(p, q)
    requires 0 <= q < sieve.Size() && s == sieve.Set(q, true)
    requires forall c :: c < q && c <= n && c < sieve.Size() && OddMultipleFrom(c, p) ==> sieve.Get(c)
    ensures forall c :: c < q + 2 * p && c <= n && c < s.Size() && OddMultipleFrom(c, p) ==> s.Get(c)
  {
    forall c | c < q + 2 * p && c <= n && c < s.Size() && OddMultipleFrom(c, p)
      ensures s.Get(c)
    {
      if q < c {
        NextMultiple(p, q, c);
        OddPlusOdd(q, p);
      } else if c < q {
        assert sieve.Get(c);
      }
    }
  }

  lemma MarkKeepsEarlier(sieve0: BitSet, sieve: BitSet, s: BitSet, q: int)
    requires 0 <= q < sieve.Size() == sieve0.Size() && s == sieve.Set(q, true)
    requires forall i :: 0 <= i < sieve.Size() && sieve0.Get(i) ==> sieve.Get(i)
    ensures forall i :: 0 <= i < s.Size() && sieve0.Get(i) ==> s.Get(i)
  {
    forall i | 0 <= i < s.Size() && sieve0.Get(i)
      ensures s.Get(i)
    {
      assert sieve.Get(i);
    }
  }

  lemma MarkKeepsComposite(sieve: BitSet, s: BitSet, n: int, q: int)
    requires 0 <= q <= n < sieve.Size() && !IsPrime(q) && s == sieve.Set(q, true)
    requires MarksComposite(sieve, n)
    ensures MarksComposite(s, n)
  {
    forall i | 0 <= i <= n && i < s.Size() && s.Get(i)
      ensures !IsPrime(i)
    {
      if i != q {
        assert sieve.Get(i);
      }
    }
  }

  lemma OddPlusOdd(q: int, p: int)
    requires q % 2 == 1 && p % 2 == 1
    ensures (q + p) % 2 == 0
  {
  }

  lemma OddPlusEven(q: int, p: int)
    requires q % 2 == 1
    ensures (q + 2 * p) % 2 == 1
  {
  }

  lemma OddSquare(p: int)
    requires p % 2 == 1
    ensures (p * p) % 2 == 1
  {
    var k := p / 2;
    assert p == 2 * k + 1;
    assert p * p == 2 * (2 * k * k + 2 * k) + 1;
  }

  /** Between two consecutive odd multiples q and q + 2p of p lies only the multiple q + p. */
  lemma NextMultiple(p: int, q: int, c: int)
    requires p >= 1 && Divides(p, q)
    requires q < c < q + 2 * p && c % p == 0
    ensures c == q + p
  {
    DividesLinear(p, c, q, -1);
    DividesFactor(p, c - q);
    var t := (c - q) / p;
    if t <= 0 {
      MulLeft(p, t, 0);
    } else if t >= 2 {
      MulLeft(p, 2, t);
    }
  }

  /** After the marking loop (p > limit), a composite wheel number c <= n is marked:
      its least prime factor f is at least 5 and f*f <= c <= n, so f < p. */
  lemma CompositeOnWheelIsMarked(sieve: BitSet, n: int, p: int, limit: nat, c: int)
    requires MarkedBelow(sieve, n, p) && n < sieve.Size()
    requires limit < p && n < (limit + 1) * (limit + 1)
    requires 5 <= c <= n && OnWheel(c) && !IsPrime(c)
    ensures sieve.Get(c)
  {
    CompositeHasSmallPrimeFactor(c);
    var f := SmallestDivisor(c);
    WheelPrimeFactorAtLeastFive(c, f);
    if f >= p {
      SquareMonotone(limit + 1, f);
    }
    assert OddMultipleFrom(c, f);
  }

  /** The second loop of PrimesUpTo: walk the wheel from 5 up to n and keep the
      unmarked numbers. */
  method CollectWheelPrimes(sieve: BitSet, n: int) returns (primes: seq<int>)
    requires n < sieve.Size()
    requires forall c :: 5 <= c <= n && OnWheel(c) ==> (sieve.Get(c) <==> !IsPrime(c))
    ensures forall i, j :: 0 <= i < j < |primes| ==> primes[i] < primes[j]
    ensures forall x :: x in primes <==> 5 <= x <= n && IsPrime(x)
  {
    primes := [];
    var p, step := 5, 2;
    while p <= n
      invariant WheelState(p, step)
      invariant forall i, j :: 0 <= i < j < |primes| ==> primes[i] < primes[j]
      invariant forall i :: 0 <= i < |primes| ==> primes[i] < p
      invariant forall x :: x in primes <==> 5 <= x < p && x <= n && IsPrime(x)
    {
      if !sieve.Get(p) {
        primes := primes + [p];
      }
      var next := NextWheel(p, step);
      forall x | p < x < next.0
        ensures !IsPrime(x)
      {
        OffWheelNotPrime(x);
      }
      p, step := next.0, next.1;
    }
  }

  /** `PrimesUpTo(n)`: 2 and 3 when n reaches them, then the sieve over the wheel.
      The result lists the primes up to n in ascending order. The bit set is
      allocated with (n + 1) bits, which needs n >= -32 and n + 32 to fit in an int;
      for a negative n the float square root is NaN and the marking loop does not run. */
  method PrimesUpTo(n: int64) returns (primes: seq<int64>)
    requires -32 <= n as int <= 0x7FFF_FFFF - 32
    ensures forall i, j :: 0 <= i < j < |primes| ==> primes[i] < primes[j]
    ensures forall x: int64 :: x in primes <==> 2 <= x as int <= n as int && IsPrime(x as int)
  {
    var m := n as int;
    var small: seq<int> := [];
    if m >= 2 {
      small := small + [2];
    }
    if m >= 3 {
      small := small + [3];
    }
    var sieve := NewBitSet(m + 1);
    var limit := if m >= 0 then FloorSqrt(m) else 0;
    sieve := SieveWheelComposites(sieve, m, limit);
    var wheel := CollectWheelPrimes(sieve, m);
    var all := small + wheel;
    JoinSmallAndWheelPrimes(m, small, wheel);
    primes := Widen(all, m);
  }

  /** 2 and 3 (those not above m) followed by the wheel primes are exactly the
      primes up to m, ascending and within [0, m]. */
  lemma JoinSmallAndWheelPrimes(m: int, small: seq<int>, wheel: seq<int>)
    requires small == (if m >= 2 then [2] else []) + (if m >= 3 then [3] else [])
    requires forall i, j :: 0 <= i < j < |wheel| ==> wheel[i] < wheel[j]
    requires forall x :: x in wheel <==> 5 <= x <= m && IsPrime(x)
    ensures var all := small + wheel;
      && (forall x :: x in all <==> 2 <= x <= m && IsPrime(x))
      && (forall i, j :: 0 <= i < j < |all| ==> all[i] < all[j])
      && (forall i :: 0 <= i < |all| ==> 0 <= all[i] <= m)
  {
    var all := small + wheel;
    SmallPrimes();
    forall x | 2 <= x <= m && IsPrime(x) && x >= 5
      ensures x in wheel
    {
      PrimeModSix(x);
    }
    forall i, j | 0 <= i < j < |all|
      ensures all[i] < all[j]
    {
      if j >= |small| {
        assert all[j] in wheel;
      }
    }
    forall i | 0 <= i < |all|
      ensures 0 <= all[i] <= m
    {
      assert all[i] in all;
    }
  }

  /** The same values as C# `long`s. */
  function Widen(s: seq<int>, n: int): (r: seq<int64>)
    requires n <= 0x7FFF_FFFF
    requires forall i :: 0 <= i < |s| ==> 0 <= s[i] <= n
    ensures |r| == |s| && forall i :: 0 <= i < |s| ==> r[i] as int == s[i]
    ensures forall x: int64 :: x in r <==> x as int in s
  {
    var r := seq(|s|, i requires 0 <= i < |s| => s[i] as int64);
    assert forall x: int64 :: x as int in s ==> x in r by {
      forall x: int64 | x as int in s
        ensures x in r
      {
        var i :| 0 <= i < |s| && s[i] == x as int;
        assert r[i] == x;
      }
    }
    r
  }

  /** 2 and 3 are prime and 4 is not. */
  lemma SmallPrimes()
    ensures IsPrime(2) && IsPrime(3) && !IsPrime(4)
  {
    assert Divides(2, 4);
  }

  /** The shared loop of both overloads of `IsPrime`, once n is known to be at
      least 5 and divisible by neither 2 nor 3: try i and i + 2 for
      i = 5, 11, 17, ... up to floor(sqrt(n)). */
  method TrialDivision(n: int) returns (r: bool)
    requires n >= 5 && n % 2 != 0 && n % 3 != 0
    ensures r <==> IsPrime(n)
  {
    var limit := FloorSqrt(n);
    r := DecideBySixKRounds(n, limit);
  }

  /** `IsPrime(int)`: below 2 nothing is prime, an even number is prime only
      when it is 2, a multiple of 3 only when it is 3. */
  method IsPrimeInt(n: int32) returns (r: bool)
    ensures r <==> IsPrime(n as int)
  {
    r := IsPrimeSmallCases(n as int);
  }

  /** `IsPrime(long)`: the same test on 64-bit integers. */
  method IsPrimeLong(n: int64) returns (r: bool)
    ensures r <==> IsPrime(n as int)
  {
    r := IsPrimeSmallCases(n as int);
  }

  /** The part both overloads share: nothing below 2 is prime, an even number is
      prime only when it is 2, a multiple of 3 only when it is 3, and the rest go
      to trial division. */
  method IsPrimeSmallCases(n: int) returns (r: bool)
    ensures r <==> IsPrime(n)
  {
    if n < 2 {
      return false;
    }
    if n % 2 == 0 {
      if n != 2 {
        assert Divides(2, n);
      }
      SmallPrimes();
      return n == 2;
    }
    if n % 3 == 0 {
      if n != 3 {
        assert Divides(3, n);
      }
      SmallPrimes();
      return n == 3;
    }
    r := TrialDivision(n);
  }
}

=== FILE: prime_tester.dfy ===
/**
 Trial-division primality test for 64-bit integers, skipping multiples of 2 and 3.
 */
module PrimeTester {
  import opened NumberTheory

  /** True exactly when n is prime: small cases first, then divisors i and i + 2
      for i = 5, 11, 17, ... up to floor(sqrt(n)). */
  method IsPrime(n: int64) returns (r: bool)
    ensures r <==> NumberTheory.IsPrime(n as int)
  {
    var m := n as int;
    if m <= 1 {
      return false;
    }
    if m <= 3 {
      return true;
    }
    if m % 2 == 0 {
      // n is even
      assert Divides(2, m);
      return false;
    }
    if m % 3 == 0 {
      assert Divides(3, m);
      return m == 3;
    }
    var limit := FloorSqrt(m);
    r := DecideBySixKRounds(m, limit);
  }
}

=== FILE: sieve_candidate_builder.dfy ===
/**
 The candidate search for one prime p1. For n = 1, 2, ... while
 z = p1^2 - 12 n^2 stays non-negative, it walks k1 through k1 = p1 (mod 4),
 k1 <= p1 - 1, and solves k2^2 + (k1 - p1) k2 + (k1^2 - p1 k1 + 4 n^2) = 0
 through an exact perfect-square test on the discriminant. With
 k3 = p1 - k1 - k2, a triple that is a permutation of one already seen for
 this n is dropped. The Eisenstein coordinates d = k1 - k2 and e = k1 - k3
 then pass the gcd filter and the perfect-power filter on z. A value of n
 contributes its candidate only when exactly one triple survives.
 */
module SieveCandidateBuilder {
  import opened NumberTheory
  import opened EisensteinSieve
  import opened PerfectSquareSieve

  /** Gauss coordinates (a, b) and Eisenstein coordinates (d, e) of the norm z. */
  datatype Quadruple = Quadruple(a: int, b: int, d: int, e: int)

  /** One candidate: p1, p2 = p1 + 4n, n, z, the triple (k1, k2, k3) and its coordinates. */
  datatype SieveCandidate = SieveCandidate(
    p1: int, p2: int, n: int, z: int,
    k1: int, k2: int, k3: int,
    quad: Quadruple)

  /** The floating-point quantities of the search, taken as inputs: k1Lo(p1, n)
      is the float bound ceil((p1 - 2 sqrt(z)) / 3), and powers are the
      estimates the perfect-power filter consults. */
  datatype FloatModel = FloatModel(k1Lo: (int, int) -> int, powers: PowerEstimates)

  /** The state of the search for one n: the sorted triples seen so far, and
      the candidates that passed every filter. */
  datatype Search = Search(seen: set<(int, int, int)>, local: seq<SieveCandidate>)

  /** t lists a, b and c in some order. */
  predicate IsPermutationOf(t: (int, int, int), a: int, b: int, c: int)
  {
    t == (a, b, c) || t == (a, c, b) || t == (b, a, c) ||
    t == (b, c, a) || t == (c, a, b) || t == (c, b, a)
  }

  /** The three compare-and-swap steps: (a, b), then (b, c), then (a, b) again. */
  function Sort3(a: int, b: int, c: int): (r: (int, int, int))
    ensures r.0 <= r.1 <= r.2
  {
    var (a1, b1) := if a > b then (b, a) else (a, b);
    var (b2, c2) := if b1 > c then (c, b1) else (b1, c);
    var (a3, b3) := if a1 > b2 then (b2, a1) else (a1, b2);
    (a3, b3, c2)
  }

  /** Sort3 returns its arguments in some order. */
  lemma Sort3Permutes(a: int, b: int, c: int)
    ensures IsPermutationOf(Sort3(a, b, c), a, b, c)
  {
  }

  /** a and b leave the same non-negative remainder modulo m. */
  predicate Congruent(a: int, b: int, m: int)
    requires m > 0
  {
    a % m == b % m
  }

  /** The least y >= x with y = residue (mod m). Both residue and x are first
      reduced to [0, m) by taking C#'s remainder, adding m and taking the
      remainder again; x then moves up by the distance between the two. */
  function AlignUpToResidue(x: int, m: int, residue: int): (y: int)
    requires m > 0
    ensures x <= y < x + m
    ensures Congruent(y, residue, m)
    ensures forall y' :: x <= y' < y ==> !Congruent(y', residue, m)
  {
    var res := Rem(Rem(residue, m) + m, m);
    var r := Rem(Rem(x, m) + m, m);
    var diff := Rem(res - r + m, m);
    ShiftedRemainder(residue, m);
    ShiftedRemainder(x, m);
    AlignStep(x, m, res, diff);
    CongruentToRemainder(residue, m);
    x + diff
  }

  /** C#'s ((a % m) + m) % m is the Euclidean remainder. */
  lemma ShiftedRemainder(a: int, m: int)
    requires m > 0
    ensures Rem(Rem(a, m) + m, m) == a % m
  {
    var t := Rem(a, m);
    var k := Decompose(a, m);
    if t < 0 {
      ModUnique(t + m, m, t + m, 0);
      ModUnique(a, m, t + m, k - 1);
    } else {
      ModUnique(t + m, m, t, 1);
      ModUnique(a, m, t, k);
    }
  }

  /** Being congruent to a number or to its remainder is the same. */
  lemma CongruentToRemainder(a: int, m: int)
    requires m > 0
    ensures forall y :: Congruent(y, a % m, m) <==> Congruent(y, a, m)
  {
    ModUnique(a % m, m, a % m, 0);
  }

  /** With res in [0, m), the step diff = (res - x % m + m) % m is the least
      non-negative t with x + t = res (mod m). */
  lemma AlignStep(x: int, m: int, res: int, diff: int)
    requires m > 0 && 0 <= res < m
    requires diff == Rem(res - x % m + m, m)
    ensures 0 <= diff < m
    ensures Congruent(x + diff, res, m)
    ensures forall y :: x <= y < x + diff ==> !Congruent(y, res, m)
  {
    var r := x % m;
    var qx := x / m;
    ModUnique(res, m, res, 0);
    if res >= r {
      ModUnique(res - r + m, m, res - r, 1);
      ModUnique(x + diff, m, res, qx);
    } else {
      ModUnique(res - r + m, m, res - r + m, 0);
      ModUnique(x + diff, m, res, qx + 1);
    }
    forall y | x <= y < x + diff
      ensures !Congruent(y, res, m)
    {
      if r + (y - x) < m {
        ModUnique(y, m, r + (y - x), qx);
      } else {
        ModUnique(y, m, r + (y - x) - m, qx + 1);
      }
    }
  }

  /** Floor square root of x from any seed: step down while r*r > x, then up
      while (r+1)^2 <= x. The seed stands for the floating-point square root
      of x truncated to an integer. */
  method IntegerSqrt64(x: nat, seed: nat) returns (r: nat)
    ensures r * r <= x < (r + 1) * (r + 1)
    ensures r == FloorSqrt(x)
    ensures x == 0 ==> r == 0
  {
    if x == 0 {
      FloorSqrtUnique(0, 0);
      return 0;
    }
    r := seed;
    while r * r > x
      decreases r
    {
      r := r - 1;
    }
    while (r + 1) * (r + 1) <= x
      invariant r * r <= x
      decreases x - r
    {
      r := r + 1;
    }
    FloorSqrtUnique(x, r);
  }

  /** The sorted triple a candidate is deduplicated by. */
  function Key(c: SieveCandidate): (int, int, int)
  {
    Sort3(c.k1, c.k2, c.k3)
  }

  /** One root num = -B +- sqrt(delta) of the doubled quadratic. An odd num gives
      no integer k2. Otherwise k2 = num / 2 and k3 = p1 - k1 - k2. A triple whose
      sorted form was seen before is dropped before any filter runs; a new one is
      recorded as seen and then meets the gcd filter on (d, e) = (k1 - k2, k1 - k3)
      and the perfect-power filter on z. (z is never negative here, so the ulong
      cast of z is the identity.) */
  function TryCreateCandidate(p1: int, n: int, p2: int, z: int, k1: int, num: int,
                              powers: PowerEstimates, st: Search): (r: Search)
    requires z >= 0
    ensures st.seen <= r.seen
    ensures num % 2 == 0 ==> Sort3(k1, num / 2, p1 - k1 - num / 2) in r.seen
    ensures r.seen <= st.seen + {Sort3(k1, num / 2, p1 - k1 - num / 2)}
    ensures num % 2 != 0 || Sort3(k1, num / 2, p1 - k1 - num / 2) in st.seen ==> r == st
    ensures |st.local| <= |r.local| <= |st.local| + 1 && r.local[..|st.local|] == st.local
    ensures |r.local| > |st.local| ==> r.local[|st.local|].n == n && r.local[|st.local|].k1 == k1
  {
    if num % 2 != 0 then st
    else
      var k2 := num / 2;
      var k3 := p1 - k1 - k2;
      var key := Sort3(k1, k2, k3);
      if key in st.seen then st
      else
        var seen := st.seen + {key};
        var d, e := k1 - k2, k1 - k3;
        if !MayBeZPrime(d, e) then Search(seen, st.local)
        else if IsPerfectPowerWithBaseAtLeast13(z, powers) then Search(seen, st.local)
        else Search(seen, st.local + [SieveCandidate(p1, p2, n, z, k1, k2, k3, Quadruple(0, 0, d, e))])
  }

  /** The k1 loop of SearchWithResidues: k1 = k1, k1 + 4, ... while k1 <= k1Hi. */
  function ScanK1(p1: int, n: int, p2: int, z: int, k1: int, k1Hi: int,
                  powers: PowerEstimates, st: Search): (r: Search)
    requires z >= 0
    decreases k1Hi - k1
    ensures st.seen <= r.seen
    ensures |st.local| <= |r.local| && r.local[..|st.local|] == st.local
    ensures forall i :: |st.local| <= i < |r.local| ==> r.local[i].n == n && k1 <= r.local[i].k1 <= k1Hi
  {
    if k1 > k1Hi then st
    else
      var st2 := VisitK1(p1, n, p2, z, k1, powers, st);
      var r := ScanK1(p1, n, p2, z, k1 + 4, k1Hi, powers, st2);
      PrefixOfPrefix(st.local, st2.local, r.local);
      r
  }

  /** The discriminant B^2 - 4C of k2^2 + B k2 + C, with B = k1 - p1 and
      C = k1^2 - p1 k1 + 4n^2. */
  function Discriminant(p1: int, n: int, k1: int): int
  {
    var B := k1 - p1;
    var C := k1 * k1 - p1 * k1 + 4 * n * n;
    B * B - 4 * C
  }

  /** The values of 2 k2 worth trying for one k1: none when the discriminant
      is negative or not a perfect square, otherwise -B + s and -B - s, the
      second distinct exactly when s != 0. */
  datatype RootPair = NoRoots | Roots(plus: int, minus: int, distinct: bool)

  /** The exact root test of the k1 loop. */
  function KRoots(p1: int, n: int, k1: int): RootPair
  {
    var delta := Discriminant(p1, n, k1);
    if delta < 0 then NoRoots
    else
      var s := FloorSqrt(delta);
      if s * s != delta then NoRoots
      else Roots(p1 - k1 + s, p1 - k1 - s, s != 0)
  }

  /** One pass of the k1 loop: k1 is skipped when it has no roots, otherwise
      both values of 2 k2 are tried. */
  function VisitK1(p1: int, n: int, p2: int, z: int, k1: int, powers: PowerEstimates, st: Search): (r: Search)
    requires z >= 0
    ensures st.seen <= r.seen
    ensures |st.local| <= |r.local| && r.local[..|st.local|] == st.local
    ensures forall i :: |st.local| <= i < |r.local| ==> r.local[i].n == n && r.local[i].k1 == k1
  {
    match KRoots(p1, n, k1)
    case NoRoots => st
    case Roots(plus, minus, distinct) => TryBothRoots(p1, n, p2, z, k1, plus, minus, distinct, powers, st)
  }

  /** The two candidate values of 2 k2 for one k1: plus = -B + s first, then
      minus = -B - s only when the roots differ (s != 0). */
  function TryBothRoots(p1: int, n: int, p2: int, z: int, k1: int, plus: int, minus: int, distinct: bool,
                        powers: PowerEstimates, st: Search): (r: Search)
    requires z >= 0
    ensures st.seen <= r.seen
    ensures |st.local| <= |r.local| && r.local[..|st.local|] == st.local
    ensures forall i :: |st.local| <= i < |r.local| ==> r.local[i].n == n && r.local[i].k1 == k1
  {
    var st1 := TryCreateCandidate(p1, n, p2, z, k1, plus, powers, st);
    if !distinct then st1
    else
      var st2 := TryCreateCandidate(p1, n, p2, z, k1, minus, powers, st1);
      PrefixOfPrefix(st.local, st1.local, st2.local);
      st2
  }

  /** A prefix of a prefix is a prefix, and the entries past the inner prefix
      come from the middle sequence or from the outer one. */
  lemma PrefixOfPrefix<T>(a: seq<T>, b: seq<T>, c: seq<T>)
    requires |a| <= |b| <= |c| && b[..|a|] == a && c[..|b|] == b
    ensures c[..|a|] == a
    ensures forall i :: |a| <= i < |b| ==> c[i] == b[i]
  {
    assert c[..|b|][..|a|] == c[..|a|];
    forall i | |a| <= i < |b|
      ensures c[i] == b[i]
    {
      assert c[..|b|][i] == c[i];
    }
  }

  /** One search for a given n: start at the least k1 >= k1Lo with k1 = r1 (mod 4)
      and hand the local list on only when it holds exactly one candidate. The
      set of seen triples is local to this n. */
  function SearchWithResidues(p1: int, n: int, p2: int, z: int, k1Lo: int, k1Hi: int, r1: int,
                              powers: PowerEstimates, seen: set<(int, int, int)>,
                              global: seq<SieveCandidate>): (r: seq<SieveCandidate>)
    requires z >= 0
    ensures |global| <= |r| <= |global| + 1 && r[..|global|] == global
    ensures |r| > |global| ==>
      var st := ScanK1(p1, n, p2, z, AlignUpToResidue(k1Lo, 4, r1), k1Hi, powers, Search(seen, []));
      |st.local| == 1 && r[|global|] == st.local[0] && r[|global|].n == n
  {
    var k1Start := AlignUpToResidue(k1Lo, 4, r1);
    if k1Start > k1Hi then global
    else
      var st := ScanK1(p1, n, p2, z, k1Start, k1Hi, powers, Search(seen, []));
      if |st.local| == 1 then global + st.local else global
  }

  /** The body of the n loop for an n with z = p1^2 - 12 n^2 >= 0: p2 = p1 + 4n;
      n is skipped when the float bound k1Lo exceeds k1Hi = p1 - 1, and otherwise
      searched with k1 = r1 (mod 4) and an empty set of seen triples. */
  function SearchOneN(p1: int, r1: int, n: int, fm: FloatModel, acc: seq<SieveCandidate>): (r: seq<SieveCandidate>)
    requires p1 * p1 - 12 * n * n >= 0
    ensures |acc| <= |r| <= |acc| + 1 && r[..|acc|] == acc
    ensures |r| > |acc| ==> r[|acc|].n == n
  {
    var k1Lo := fm.k1Lo(p1, n);
    var k1Hi := p1 - 1;
    if k1Lo > k1Hi then acc
    else SearchWithResidues(p1, n, p1 + 4 * n, p1 * p1 - 12 * n * n, k1Lo, k1Hi, r1, fm.powers, {}, acc)
  }

  /** The n loop: n = n, n + 1, ... up to the first n with z = p1^2 - 12 n^2 < 0. */
  function ScanN(p1: int, r1: int, n: int, fm: FloatModel, acc: seq<SieveCandidate>): (r: seq<SieveCandidate>)
    requires n >= 1
    decreases p1 * p1 - 12 * n * n
    ensures |acc| <= |r| && r[..|acc|] == acc
    ensures forall i :: |acc| <= i < |r| ==> r[i].n >= n
  {
    if p1 * p1 - 12 * n * n < 0 then acc
    else
      var next := SearchOneN(p1, r1, n, fm, acc);
      assert (n + 1) * (n + 1) == n * n + 2 * n + 1;
      var r := ScanN(p1, r1, n + 1, fm, next);
      PrefixOfPrefix(acc, next, r);
      r
  }

  /** The candidates for p1: nothing when the float bound nMax, p1 / sqrt(3) truncated,
      is not positive, which happens exactly for p1 <= 1; nothing either when
      p1^2 exceeds the largest long, since the checked computation of z then
      overflows at n = 1 and ends the loop; otherwise the n loop from n = 1 with
      the residue p1 mod 4. (Once p1^2 fits, 12 n^2 overflows only for an n
      whose z is negative anyway.) */
  function FindCandidatesForP1(p1: int, fm: FloatModel): (r: seq<SieveCandidate>)
    ensures p1 <= 1 || p1 * p1 > Int64Max ==> r == []
    ensures forall i :: 0 <= i < |r| ==> r[i].n >= 1
  {
    if p1 <= 1 || p1 * p1 > Int64Max then [] else ScanN(p1, p1 % 4, 1, fm, [])
  }
}

=== FILE: sieve_candidate_properties.dfy ===
/**
 What the candidate search guarantees. Every emitted candidate is a genuine
 root triple of its n that passes both filters, with Eisenstein norm z; the
 output is ordered by n with at most one candidate each; and n contributes a
 candidate exactly when the filter-passing root triples of n are all
 permutations of one triple.
 */
module SieveCandidateProperties {
  import opened NumberTheory
  import opened EisensteinSieve
  import opened PerfectSquareSieve
  import opened SieveCandidateBuilder

  // ----- the sorted key -----

  /** Two triples have the same sorted form exactly when one permutes the other. */
  lemma Sort3Canonical(a: int, b: int, c: int, x: int, y: int, z: int)
    ensures Sort3(a, b, c) == Sort3(x, y, z) <==> IsPermutationOf((x, y, z), a, b, c)
  {
    var s, t := Sort3(a, b, c), Sort3(x, y, z);
    Sort3Permutes(a, b, c);
    Sort3Permutes(x, y, z);
    if IsPermutationOf((x, y, z), a, b, c) {
      assert IsPermutationOf(t, a, b, c);
    }
  }

  // ----- the quadratic in k2 -----

  /** k2 solves k2^2 + (k1 - p1) k2 + (k1^2 - p1 k1 + 4 n^2) = 0. */
  predicate IsRoot(p1: int, n: int, k1: int, k2: int)
  {
    k2 * k2 + (k1 - p1) * k2 + (k1 * k1 - p1 * k1 + 4 * n * n) == 0
  }

  /** The exact discriminant test finds exactly the integer roots: k2 is a root
      of k2^2 + B k2 + C iff delta = B^2 - 4C is a non-negative perfect square
      and 2 k2 is -B + sqrt(delta) or -B - sqrt(delta). */
  lemma {:induction false} DiscriminantTestExact(B: int, C: int, k2: int)
    ensures k2 * k2 + B * k2 + C == 0 ==> DiscriminantTest(B, C, k2)
    ensures DiscriminantTest(B, C, k2) ==> k2 * k2 + B * k2 + C == 0
  {
    if k2 * k2 + B * k2 + C == 0 {
      RootGivesSquareDiscriminant(B, C, k2, 2 * k2 + B, B * B - 4 * C);
    }
    if DiscriminantTest(B, C, k2) {
      RootFromSquareRoot(B, C, k2, FloorSqrt(B * B - 4 * C));
    }
  }

  /** What the k1 loop checks of a candidate root k2: delta = B^2 - 4C is a
      non-negative perfect square and 2 k2 is -B + sqrt(delta) or -B - sqrt(delta). */
  predicate DiscriminantTest(B: int, C: int, k2: int)
  {
    var delta := B * B - 4 * C;
    && delta >= 0 && IsSquare(delta)
    && (2 * k2 == -B + FloorSqrt(delta) || 2 * k2 == -B - FloorSqrt(delta))
  }

  /** A root k2 makes the discriminant delta = B^2 - 4C the square of x = 2 k2 + B,
      so it passes the test. */
  lemma RootGivesSquareDiscriminant(B: int, C: int, k2: int, x: int, delta: int)
    requires k2 * k2 + B * k2 + C == 0 && x == 2 * k2 + B && delta == B * B - 4 * C
    ensures delta >= 0 && IsSquare(delta)
    ensures x == FloorSqrt(delta) || x == -(FloorSqrt(delta) as int)
    ensures DiscriminantTest(B, C, k2)
  {
    ShiftedRootSquares(B, C, k2, x, delta);
    SquareRootsOf(x, delta);
    SquareRootPassesTest(B, C, k2, x, delta);
  }

  lemma ShiftedRootSquares(B: int, C: int, k2: int, x: int, delta: int)
    requires k2 * k2 + B * k2 + C == 0 && x == 2 * k2 + B && delta == B * B - 4 * C
    ensures x * x == delta
  {
    CompletedSquare(B, C, k2);
  }

  lemma SquareRootPassesTest(B: int, C: int, k2: int, x: int, delta: int)
    requires x == 2 * k2 + B && delta == B * B - 4 * C && delta >= 0 && IsSquare(delta)
    requires x == FloorSqrt(delta) || x == -(FloorSqrt(delta) as int)
    ensures DiscriminantTest(B, C, k2)
  {
  }

  /** With s^2 = B^2 - 4C, half of -B + s or -B - s is a root. */
  lemma RootFromSquareRoot(B: int, C: int, k2: int, s: int)
    requires s * s == B * B - 4 * C
    requires 2 * k2 == -B + s || 2 * k2 == -B - s
    ensures k2 * k2 + B * k2 + C == 0
  {
    var x := 2 * k2 + B;
    SquareOfNegation(x, s);
    CompletedSquareCancels(B, C, k2, B * B - 4 * C);
  }

  /** Once (2 k2 + B)^2 equals the discriminant, k2 is a root. */
  lemma CompletedSquareCancels(B: int, C: int, k2: int, delta: int)
    requires delta == B * B - 4 * C && (2 * k2 + B) * (2 * k2 + B) == delta
    ensures k2 * k2 + B * k2 + C == 0
  {
    CompletedSquare(B, C, k2);
    CancelSquare((2 * k2 + B) * (2 * k2 + B), k2 * k2 + B * k2 + C, delta);
  }

  lemma CancelSquare(sq: int, q: int, delta: int)
    requires sq == 4 * q + delta && sq == delta
    ensures q == 0
  {
  }

  /** (2 k2 + B)^2 = 4 (k2^2 + B k2 + C) + (B^2 - 4C). */
  lemma CompletedSquare(B: int, C: int, k2: int)
    ensures (2 * k2 + B) * (2 * k2 + B) == 4 * (k2 * k2 + B * k2 + C) + (B * B - 4 * C)
  {
    assert (2 * k2 + B) * (2 * k2 + B) == 4 * (k2 * k2) + 4 * (B * k2) + B * B;
  }

  /** For a root triple, k1 k2 + k2 k3 + k3 k1 = 4 n^2 with k3 = p1 - k1 - k2, and so
      the Eisenstein norm of (k1 - k2, k1 - k3) is p1^2 - 12 n^2. */
  lemma {:induction false} RootTripleIdentities(p1: int, n: int, k1: int, k2: int, k3: int)
    requires k1 + k2 + k3 == p1 && IsRoot(p1, n, k1, k2)
    ensures k1 * k2 + k2 * k3 + k3 * k1 == 4 * n * n
    ensures Norm(k1 - k2, k1 - k3) == p1 * p1 - 12 * n * n
  {
    var s2 := k1 * k2 + k2 * k3 + k3 * k1;
    assert s2 == k1 * k2 + (k1 + k2) * (p1 - k1 - k2);
    assert s2 == -(k2 * k2 + (k1 - p1) * k2 + (k1 * k1 - p1 * k1)) by {
      assert (k1 + k2) * (p1 - k1 - k2) == p1 * k1 + p1 * k2 - k1 * k1 - 2 * (k1 * k2) - k2 * k2;
    }
    assert Norm(k1 - k2, k1 - k3) == (k1 + k2 + k3) * (k1 + k2 + k3) - 3 * s2;
  }

  // ----- the gcd filter sees the triple, not its order -----

  /** The gcd filter on the coordinates (t0 - t1, t0 - t2) of a triple. */
  function Verdict(t: (int, int, int)): bool
  {
    MayBeZPrime(t.0 - t.1, t.0 - t.2)
  }

  /** Permuting the triple does not change the gcd filter's verdict. */
  lemma {:induction false} VerdictOfPermutation(t: (int, int, int), a: int, b: int, c: int)
    requires IsPermutationOf(t, a, b, c)
    ensures Verdict(t) == Verdict((a, b, c))
  {
    if t == (a, c, b) {
      VerdictSwapLast(a, b, c);
    } else if t == (b, a, c) {
      VerdictSwapFirst(a, b, c);
    } else if t == (b, c, a) {
      VerdictSwapFirst(a, b, c);
      VerdictSwapLast(b, a, c);
    } else if t == (c, a, b) {
      VerdictSwapLast(a, b, c);
      VerdictSwapFirst(a, c, b);
    } else if t == (c, b, a) {
      VerdictSwapLast(a, b, c);
      VerdictSwapFirst(a, c, b);
      VerdictSwapLast(c, a, b);
    }
  }

  /** Exchanging the last two entries swaps d and e. */
  lemma VerdictSwapLast(a: int, b: int, c: int)
    ensures Verdict((a, c, b)) == Verdict((a, b, c))
  {
    MayBeZPrimeUnderPermutation(a - b, a - c);
  }

  /** Exchanging the first two entries maps (d, e) to (-d, e - d). */
  lemma VerdictSwapFirst(a: int, b: int, c: int)
    ensures Verdict((b, a, c)) == Verdict((a, b, c))
  {
    MayBeZPrimeSheared(a - b, a - c, b - a, b - c);
  }

  // ----- what an emitted candidate satisfies -----

  /** The facts TryCreateCandidate establishes for a candidate of p1 and n found with
      k1 >= lo: p2 = p1 + 4n, z = p1^2 - 12n^2 >= 0, k1 = p1 (mod 4), k1 <= p1 - 1,
      k1 + k2 + k3 = p1, k2 a root of the quadratic, Quad = (0, 0, k1 - k2, k1 - k3),
      and both filters passed. */
  ghost predicate Emitted(c: SieveCandidate, p1: int, n: int, lo: int, powers: PowerEstimates)
  {
    && c.p1 == p1 && c.n == n && n >= 1
    && c.p2 == p1 + 4 * n && c.z == p1 * p1 - 12 * n * n && c.z >= 0
    && lo <= c.k1 <= p1 - 1 && c.k1 % 4 == p1 % 4
    && c.k1 + c.k2 + c.k3 == p1 && IsRoot(p1, n, c.k1, c.k2)
    && c.quad == Quadruple(0, 0, c.k1 - c.k2, c.k1 - c.k3)
    && MayBeZPrime(c.quad.d, c.quad.e) && !IsPerfectPowerWithBaseAtLeast13(c.z, powers)
  }

  /** The condition the candidate search lists but never checks: d^2 - de + e^2 equals z. */
  lemma EmittedNormIsZ(c: SieveCandidate, p1: int, n: int, lo: int, powers: PowerEstimates)
    requires Emitted(c, p1, n, lo, powers)
    ensures c.k1 * c.k2 + c.k2 * c.k3 + c.k3 * c.k1 == 4 * n * n
    ensures Norm(c.quad.d, c.quad.e) == c.z
  {
    RootTripleIdentities(p1, n, c.k1, c.k2, c.k3);
  }

  // ----- the search for one n -----

  /** The sorted triple t passes both filters. */
  ghost predicate Passes(z: int, t: (int, int, int), powers: PowerEstimates)
  {
    z >= 0 && Verdict(t) && !IsPerfectPowerWithBaseAtLeast13(z, powers)
  }

  /** Passes as a predicate on sorted triples. */
  ghost function PassesFor(z: int, powers: PowerEstimates): ((int, int, int)) -> bool
  {
    t => Passes(z, t, powers)
  }

  /** PassesFor applied to t. */
  lemma PassesForIs(z: int, powers: PowerEstimates, t: (int, int, int))
    ensures PassesFor(z, powers)(t) == Passes(z, t, powers)
  {
  }

  /** The bookkeeping of seen keys: every local candidate's key is seen, the keys
      are pairwise different, and a seen key satisfies ok exactly when a local
      candidate carries it. */
  ghost predicate KeyBook(seen: set<(int, int, int)>, local: seq<SieveCandidate>, ok: ((int, int, int)) -> bool)
  {
    && (forall i :: 0 <= i < |local| ==> Key(local[i]) in seen)
    && (forall i, j :: 0 <= i < j < |local| ==> Key(local[i]) != Key(local[j]))
    && (forall t :: t in seen ==> (ok(t) <==> exists i :: 0 <= i < |local| && Key(local[i]) == t))
  }

  /** The loop invariant of the k1 scan: the local candidates are emitted ones,
      and the seen keys are booked against the filters. */
  ghost predicate SearchInvariant(p1: int, n: int, from: int, powers: PowerEstimates, st: Search)
  {
    && (forall i :: 0 <= i < |st.local| ==> Emitted(st.local[i], p1, n, from, powers))
    && KeyBook(st.seen, st.local, PassesFor(p1 * p1 - 12 * n * n, powers))
  }

  /** Every root triple with from <= k1 < upTo (and k1 < p1, k1 = p1 mod 4) has its
      sorted form among the seen ones. */
  ghost predicate Covered(p1: int, n: int, from: int, upTo: int, seen: set<(int, int, int)>)
  {
    forall k1, k2 :: from <= k1 < upTo && k1 < p1 && k1 % 4 == p1 % 4 && IsRoot(p1, n, k1, k2) ==>
      Sort3(k1, k2, p1 - k1 - k2) in seen
  }

  /** One call of TryCreateCandidate on a root keeps the invariant. */
  lemma TryCreateKeepsInvariant(p1: int, n: int, p2: int, z: int, from: int, k1: int, num: int, powers: PowerEstimates, st: Search)
    requires n >= 1 && p2 == p1 + 4 * n && z == p1 * p1 - 12 * n * n && z >= 0
    requires from <= k1 < p1 && k1 % 4 == p1 % 4
    requires num % 2 == 0 ==> IsRoot(p1, n, k1, num / 2)
    requires SearchInvariant(p1, n, from, powers, st)
    ensures SearchInvariant(p1, n, from, powers,
      TryCreateCandidate(p1, n, p2, z, k1, num, powers, st))
  {
    var r := TryCreateCandidate(p1, n, p2, z, k1, num, powers, st);
    if num % 2 != 0 || Sort3(k1, num / 2, p1 - k1 - num / 2) in st.seen {
      return;
    }
    var k2, k3 := num / 2, p1 - k1 - num / 2;
    TryCreateOutcome(p1, n, p2, z, k1, num, k2, k3, powers, st, r);
    OutcomeKeepsInvariant(p1, n, p2, z, from, k1, k2, k3, powers, st, r);
  }

  /** On an even num = 2 k2 whose sorted triple (k1, k2, k3) is new, TryCreateCandidate
      records the key, and appends the candidate built from the triple exactly when
      (d, e) = (k1 - k2, k1 - k3) passes the gcd filter and z is no perfect power. */
  lemma TryCreateOutcome(p1: int, n: int, p2: int, z: int, k1: int, num: int, k2: int, k3: int,
                         powers: PowerEstimates, st: Search, r: Search)
    requires z >= 0 && num % 2 == 0 && k2 == num / 2 && k3 == p1 - k1 - k2
    requires Sort3(k1, k2, k3) !in st.seen
    requires r == TryCreateCandidate(p1, n, p2, z, k1, num, powers, st)
    ensures r.seen == st.seen + {Sort3(k1, k2, k3)}
    ensures MayBeZPrime(k1 - k2, k1 - k3) && !IsPerfectPowerWithBaseAtLeast13(z, powers) ==>
      r.local == st.local + [SieveCandidate(p1, p2, n, z, k1, k2, k3, Quadruple(0, 0, k1 - k2, k1 - k3))]
    ensures !MayBeZPrime(k1 - k2, k1 - k3) || IsPerfectPowerWithBaseAtLeast13(z, powers) ==>
      r.local == st.local
  {
  }

  /** Whichever way the filters decide on a new root triple, recording it keeps the
      invariant. */
  lemma OutcomeKeepsInvariant(p1: int, n: int, p2: int, z: int, from: int, k1: int, k2: int, k3: int,
                              powers: PowerEstimates, st: Search, r: Search)
    requires n >= 1 && p2 == p1 + 4 * n && z == p1 * p1 - 12 * n * n && z >= 0
    requires from <= k1 < p1 && k1 % 4 == p1 % 4 && k3 == p1 - k1 - k2 && IsRoot(p1, n, k1, k2)
    requires SearchInvariant(p1, n, from, powers, st)
    requires Sort3(k1, k2, k3) !in st.seen && r.seen == st.seen + {Sort3(k1, k2, k3)}
    requires MayBeZPrime(k1 - k2, k1 - k3) && !IsPerfectPowerWithBaseAtLeast13(z, powers) ==>
      r.local == st.local + [SieveCandidate(p1, p2, n, z, k1, k2, k3, Quadruple(0, 0, k1 - k2, k1 - k3))]
    requires !MayBeZPrime(k1 - k2, k1 - k3) || IsPerfectPowerWithBaseAtLeast13(z, powers) ==>
      r.local == st.local
    ensures SearchInvariant(p1, n, from, powers, r)
  {
    if MayBeZPrime(k1 - k2, k1 - k3) && !IsPerfectPowerWithBaseAtLeast13(z, powers) {
      AcceptKeepsInvariant(p1, n, p2, z, from, k1, k2, k3, powers, st, r);
    } else {
      SortedTripleFails(z, k1, k2, k3, powers);
      SeenWithoutCandidate(p1, n, from, powers, st, Sort3(k1, k2, k3), r);
    }
  }

  /** Recording a new passing triple together with the candidate built from it
      keeps the invariant. */
  lemma AcceptKeepsInvariant(p1: int, n: int, p2: int, z: int, from: int, k1: int, k2: int, k3: int,
                             powers: PowerEstimates, st: Search, r: Search)
    requires n >= 1 && p2 == p1 + 4 * n && z == p1 * p1 - 12 * n * n && z >= 0
    requires from <= k1 < p1 && k1 % 4 == p1 % 4 && k3 == p1 - k1 - k2 && IsRoot(p1, n, k1, k2)
    requires MayBeZPrime(k1 - k2, k1 - k3) && !IsPerfectPowerWithBaseAtLeast13(z, powers)
    requires SearchInvariant(p1, n, from, powers, st)
    requires Sort3(k1, k2, k3) !in st.seen && r.seen == st.seen + {Sort3(k1, k2, k3)}
    requires r.local == st.local + [SieveCandidate(p1, p2, n, z, k1, k2, k3, Quadruple(0, 0, k1 - k2, k1 - k3))]
    ensures SearchInvariant(p1, n, from, powers, r)
  {
    var c := SieveCandidate(p1, p2, n, z, k1, k2, k3, Quadruple(0, 0, k1 - k2, k1 - k3));
    CandidateEmitted(p1, n, p2, z, from, k1, k2, k3, powers);
    SortedTriplePasses(z, k1, k2, k3, powers);
    assert Key(c) == Sort3(k1, k2, k3);
    SeenWithCandidate(p1, n, from, powers, st, c, r);
  }

  /** The candidate TryCreateCandidate builds from a passing root triple is an emitted one. */
  lemma CandidateEmitted(p1: int, n: int, p2: int, z: int, from: int, k1: int, k2: int, k3: int, powers: PowerEstimates)
    requires n >= 1 && p2 == p1 + 4 * n && z == p1 * p1 - 12 * n * n && z >= 0
    requires from <= k1 < p1 && k1 % 4 == p1 % 4 && k3 == p1 - k1 - k2 && IsRoot(p1, n, k1, k2)
    requires MayBeZPrime(k1 - k2, k1 - k3) && !IsPerfectPowerWithBaseAtLeast13(z, powers)
    ensures Emitted(SieveCandidate(p1, p2, n, z, k1, k2, k3, Quadruple(0, 0, k1 - k2, k1 - k3)), p1, n, from, powers)
  {
  }

  /** A triple that passes both filters in the order found passes them sorted. */
  lemma SortedTriplePasses(z: int, k1: int, k2: int, k3: int, powers: PowerEstimates)
    requires z >= 0 && MayBeZPrime(k1 - k2, k1 - k3) && !IsPerfectPowerWithBaseAtLeast13(z, powers)
    ensures Passes(z, Sort3(k1, k2, k3), powers)
  {
    assert Verdict((k1, k2, k3));
    Sort3Permutes(k1, k2, k3);
    VerdictOfPermutation(Sort3(k1, k2, k3), k1, k2, k3);
    assert Verdict(Sort3(k1, k2, k3));
  }

  /** A triple that fails a filter in the order found fails it sorted. */
  lemma SortedTripleFails(z: int, k1: int, k2: int, k3: int, powers: PowerEstimates)
    requires z >= 0 && (!MayBeZPrime(k1 - k2, k1 - k3) || IsPerfectPowerWithBaseAtLeast13(z, powers))
    ensures !Passes(z, Sort3(k1, k2, k3), powers)
  {
    assert !Verdict((k1, k2, k3)) || IsPerfectPowerWithBaseAtLeast13(z, powers);
    Sort3Permutes(k1, k2, k3);
    VerdictOfPermutation(Sort3(k1, k2, k3), k1, k2, k3);
  }

  /** Recording a new key that fails the filters keeps the invariant. */
  lemma SeenWithoutCandidate(p1: int, n: int, from: int, powers: PowerEstimates, st: Search,
                             key: (int, int, int), r: Search)
    requires SearchInvariant(p1, n, from, powers, st)
    requires key !in st.seen && r.seen == st.seen + {key} && r.local == st.local
    requires !Passes(p1 * p1 - 12 * n * n, key, powers)
    ensures SearchInvariant(p1, n, from, powers, r)
  {
    KeyBookRecord(st.seen, st.local, PassesFor(p1 * p1 - 12 * n * n, powers), key);
  }

  /** Recording a new key together with its candidate c, which passed the
      filters, keeps the invariant. */
  lemma SeenWithCandidate(p1: int, n: int, from: int, powers: PowerEstimates, st: Search,
                          c: SieveCandidate, r: Search)
    requires SearchInvariant(p1, n, from, powers, st)
    requires Key(c) !in st.seen && r.seen == st.seen + {Key(c)} && r.local == st.local + [c]
    requires Emitted(c, p1, n, from, powers)
    requires Passes(p1 * p1 - 12 * n * n, Key(c), powers)
    ensures SearchInvariant(p1, n, from, powers, r)
  {
    KeyBookAppend(st.seen, st.local, PassesFor(p1 * p1 - 12 * n * n, powers), c);
  }

  lemma KeyBookRecord(seen: set<(int, int, int)>, local: seq<SieveCandidate>, ok: ((int, int, int)) -> bool,
                      key: (int, int, int))
    requires KeyBook(seen, local, ok)
    requires key !in seen && !ok(key)
    ensures KeyBook(seen + {key}, local, ok)
  {
  }

  lemma KeyBookAppend(seen: set<(int, int, int)>, local: seq<SieveCandidate>, ok: ((int, int, int)) -> bool,
                      c: SieveCandidate)
    requires KeyBook(seen, local, ok)
    requires Key(c) !in seen && ok(Key(c))
    ensures KeyBook(seen + {Key(c)}, local + [c], ok)
  {
    var r := local + [c];
    forall t | t in seen + {Key(c)}
      ensures ok(t) <==> exists i :: 0 <= i < |r| && Key(r[i]) == t
    {
      if t == Key(c) {
        assert Key(r[|local|]) == t;
      } else {
        if ok(t) {
          var i :| 0 <= i < |local| && Key(local[i]) == t;
          assert r[i] == local[i];
        }
        if exists i :: 0 <= i < |r| && Key(r[i]) == t {
          var i :| 0 <= i < |r| && Key(r[i]) == t;
          assert i < |local| && local[i] == r[i];
        }
      }
    }
  }

  /** The k1 scan from k1 on keeps the invariant and, at its end, has seen the
      sorted form of every root triple of the progression. */
  lemma {:induction false} ScanK1KeepsInvariant(p1: int, n: int, p2: int, z: int, from: int, k1: int,
                                                 powers: PowerEstimates, st: Search)
    requires n >= 1 && p2 == p1 + 4 * n && z == p1 * p1 - 12 * n * n && z >= 0
    requires from <= k1 && k1 % 4 == p1 % 4
    requires SearchInvariant(p1, n, from, powers, st)
    decreases p1 - k1
    ensures SearchInvariant(p1, n, from, powers, ScanK1(p1, n, p2, z, k1, p1 - 1, powers, st))
  {
    if k1 <= p1 - 1 {
      var next := VisitK1(p1, n, p2, z, k1, powers, st);
      VisitK1KeepsInvariant(p1, n, p2, z, from, k1, powers, st);
      StepKeepsResidue(k1, p1 % 4);
      ScanK1KeepsInvariant(p1, n, p2, z, from, k1 + 4, powers, next);
    }
  }

  /** The k1 loop records the sorted form of every root triple it passes over. */
  lemma {:induction false} ScanK1Covers(p1: int, n: int, p2: int, z: int, from: int, k1: int,
                                         powers: PowerEstimates, st: Search)
    requires z >= 0
    requires from <= k1 && k1 % 4 == p1 % 4
    requires Covered(p1, n, from, k1, st.seen)
    decreases p1 - k1
    ensures Covered(p1, n, from, p1, ScanK1(p1, n, p2, z, k1, p1 - 1, powers, st).seen)
  {
    if k1 <= p1 - 1 {
      var next := VisitK1(p1, n, p2, z, k1, powers, st);
      VisitK1Covers(p1, n, p2, z, from, k1, powers, st);
      StepKeepsResidue(k1, p1 % 4);
      ScanK1Covers(p1, n, p2, z, from, k1 + 4, powers, next);
    } else {
      CoveredPastP1(p1, n, from, k1, st.seen);
    }
  }

  /** Coverage reaching past p1 covers every k1 below p1. */
  lemma CoveredPastP1(p1: int, n: int, from: int, k1: int, seen: set<(int, int, int)>)
    requires p1 <= k1 && Covered(p1, n, from, k1, seen)
    ensures Covered(p1, n, from, p1, seen)
  {
  }

  /** One pass of the k1 loop keeps the invariant. */
  lemma VisitK1KeepsInvariant(p1: int, n: int, p2: int, z: int, from: int, k1: int, powers: PowerEstimates, st: Search)
    requires n >= 1 && p2 == p1 + 4 * n && z == p1 * p1 - 12 * n * n && z >= 0
    requires from <= k1 < p1 && k1 % 4 == p1 % 4
    requires SearchInvariant(p1, n, from, powers, st)
    ensures SearchInvariant(p1, n, from, powers, VisitK1(p1, n, p2, z, k1, powers, st))
  {
    KRootsExact(p1, n, k1);
    var rp := KRoots(p1, n, k1);
    if rp.Roots? {
      TryBothRootsKeepsInvariant(p1, n, p2, z, from, k1, rp.plus, rp.minus, rp.distinct, powers, st);
    }
  }

  /** The roots the pass over k1 tries: each even value halves to a root, and
      between them they cover every root of k1. */
  lemma KRootsExact(p1: int, n: int, k1: int)
    ensures var rp := KRoots(p1, n, k1);
      && (rp.Roots? ==> (rp.plus % 2 == 0 ==> IsRoot(p1, n, k1, rp.plus / 2)))
      && (rp.Roots? ==> (rp.minus % 2 == 0 ==> IsRoot(p1, n, k1, rp.minus / 2)))
      && forall k2 :: IsRoot(p1, n, k1, k2) ==>
           rp.Roots? && (2 * k2 == rp.plus || (rp.distinct && 2 * k2 == rp.minus))
  {
    KRootsAreRoots(p1, n, k1);
    forall k2 | IsRoot(p1, n, k1, k2)
      ensures KRoots(p1, n, k1).Roots?
      ensures 2 * k2 == KRoots(p1, n, k1).plus || (KRoots(p1, n, k1).distinct && 2 * k2 == KRoots(p1, n, k1).minus)
    {
      KRootsFindRoot(p1, n, k1, k2);
    }
  }

  /** Each even value the pass over k1 tries halves to a root. */
  lemma KRootsAreRoots(p1: int, n: int, k1: int)
    ensures var rp := KRoots(p1, n, k1);
      && (rp.Roots? ==> (rp.plus % 2 == 0 ==> IsRoot(p1, n, k1, rp.plus / 2)))
      && (rp.Roots? ==> (rp.minus % 2 == 0 ==> IsRoot(p1, n, k1, rp.minus / 2)))
  {
    var delta := Discriminant(p1, n, k1);
    if delta >= 0 && FloorSqrt(delta) * FloorSqrt(delta) == delta {
      var s := FloorSqrt(delta);
      RootsAreRoots(p1, n, k1, s, p1 - k1 + s);
      RootsAreRoots(p1, n, k1, s, p1 - k1 - s);
    }
  }

  /** Every root k2 of k1 is among the values the pass over k1 tries. */
  lemma KRootsFindRoot(p1: int, n: int, k1: int, k2: int)
    requires IsRoot(p1, n, k1, k2)
    ensures var rp := KRoots(p1, n, k1);
      rp.Roots? && (2 * k2 == rp.plus || (rp.distinct && 2 * k2 == rp.minus))
  {
    RootsHaveSquareDiscriminant(p1, n, k1, k2);
  }

  /** One pass of the k1 loop extends the coverage by k1. */
  lemma VisitK1Covers(p1: int, n: int, p2: int, z: int, from: int, k1: int, powers: PowerEstimates, st: Search)
    requires z >= 0
    requires from <= k1 < p1 && k1 % 4 == p1 % 4
    requires Covered(p1, n, from, k1, st.seen)
    ensures Covered(p1, n, from, k1 + 4, VisitK1(p1, n, p2, z, k1, powers, st).seen)
  {
    var next := VisitK1(p1, n, p2, z, k1, powers, st);
    VisitK1Records(p1, n, p2, z, k1, powers, st);
    CoveredStep(p1, n, from, k1, st.seen, next.seen);
  }

  /** The k1 loop's step of 4 keeps the residue mod 4. */
  lemma StepKeepsResidue(k: int, r: int)
    requires k % 4 == r
    ensures (k + 4) % 4 == r
  {
    var q := k / 4;
    assert k + 4 == 4 * (q + 1) + r;
  }

  /** Coverage up to k1 in a smaller set, plus every root triple of k1, is
      coverage up to k1 + 4. */
  lemma CoveredStep(p1: int, n: int, from: int, k1: int, seen0: set<(int, int, int)>, seen1: set<(int, int, int)>)
    requires k1 % 4 == p1 % 4
    requires Covered(p1, n, from, k1, seen0) && seen0 <= seen1
    requires forall k2 :: IsRoot(p1, n, k1, k2) ==> Sort3(k1, k2, p1 - k1 - k2) in seen1
    ensures Covered(p1, n, from, k1 + 4, seen1)
  {
    forall k1', k2 | from <= k1' < k1 + 4 && k1' < p1 && k1' % 4 == p1 % 4 && IsRoot(p1, n, k1', k2)
      ensures Sort3(k1', k2, p1 - k1' - k2) in seen1
    {
      if k1' != k1 {
        SameResidueBelow(k1', k1);
      }
    }
  }

  /** Two integers with the same residue mod 4, the first below the second
      plus 4, are equal or the first is below the second. */
  lemma SameResidueBelow(a: int, b: int)
    requires a % 4 == b % 4 && a < b + 4 && a != b
    ensures a < b
  {
    var qa, qb := a / 4, b / 4;
    assert a == 4 * qa + a % 4 && b == 4 * qb + b % 4;
  }

  /** One pass of the k1 loop records the sorted form of every root triple of k1. */
  lemma VisitK1Records(p1: int, n: int, p2: int, z: int, k1: int, powers: PowerEstimates, st: Search)
    requires z >= 0
    ensures forall k2 :: IsRoot(p1, n, k1, k2) ==>
      Sort3(k1, k2, p1 - k1 - k2) in VisitK1(p1, n, p2, z, k1, powers, st).seen
  {
    KRootsExact(p1, n, k1);
    var rp := KRoots(p1, n, k1);
    forall k2 | IsRoot(p1, n, k1, k2)
      ensures Sort3(k1, k2, p1 - k1 - k2) in VisitK1(p1, n, p2, z, k1, powers, st).seen
    {
      TryBothRootsRecords(p1, n, p2, z, k1, rp.plus, rp.minus, rp.distinct, powers, st, k2);
    }
  }

  /** Trying both roots records the sorted form of each root tried. */
  lemma TryBothRootsRecords(p1: int, n: int, p2: int, z: int, k1: int, plus: int, minus: int, distinct: bool,
                            powers: PowerEstimates, st: Search, k2: int)
    requires z >= 0
    requires 2 * k2 == plus || (distinct && 2 * k2 == minus)
    ensures Sort3(k1, k2, p1 - k1 - k2) in TryBothRoots(p1, n, p2, z, k1, plus, minus, distinct, powers, st).seen
  {
    assert (2 * k2) % 2 == 0 && (2 * k2) / 2 == k2;
  }

  /** s^2 is the discriminant of the quadratic in k2 for p1, n and k1. */
  predicate IsDiscriminantRoot(p1: int, n: int, k1: int, s: int)
  {
    s >= 0 && s * s == Discriminant(p1, n, k1)
  }

  /** A root k2 makes the discriminant a perfect square with 2 k2 = -B + s or -B - s. */
  lemma RootsHaveSquareDiscriminant(p1: int, n: int, k1: int, k2: int)
    requires IsRoot(p1, n, k1, k2)
    ensures var delta := Discriminant(p1, n, k1);
      && delta >= 0 && FloorSqrt(delta) * FloorSqrt(delta) == delta
      && (2 * k2 == p1 - k1 + FloorSqrt(delta) || 2 * k2 == p1 - k1 - FloorSqrt(delta))
  {
    var B, C := k1 - p1, k1 * k1 - p1 * k1 + 4 * n * n;
    RootGivesSquareDiscriminant(B, C, k2, 2 * k2 + B, Discriminant(p1, n, k1));
  }

  /** Trying both roots keeps the invariant when each even one halves to a root. */
  lemma TryBothRootsKeepsInvariant(p1: int, n: int, p2: int, z: int, from: int, k1: int, plus: int, minus: int, distinct: bool,
                                   powers: PowerEstimates, st: Search)
    requires n >= 1 && p2 == p1 + 4 * n && z == p1 * p1 - 12 * n * n && z >= 0
    requires from <= k1 < p1 && k1 % 4 == p1 % 4
    requires plus % 2 == 0 ==> IsRoot(p1, n, k1, plus / 2)
    requires minus % 2 == 0 ==> IsRoot(p1, n, k1, minus / 2)
    requires SearchInvariant(p1, n, from, powers, st)
    ensures SearchInvariant(p1, n, from, powers,
      TryBothRoots(p1, n, p2, z, k1, plus, minus, distinct, powers, st))
  {
    TryCreateKeepsInvariant(p1, n, p2, z, from, k1, plus, powers, st);
    var st1 := TryCreateCandidate(p1, n, p2, z, k1, plus, powers, st);
    TryCreateKeepsInvariant(p1, n, p2, z, from, k1, minus, powers, st1);
  }

  /** An even -B + s or -B - s, with B = k1 - p1 and s^2 the discriminant, halves to a root. */
  lemma RootsAreRoots(p1: int, n: int, k1: int, s: int, num: int)
    requires IsDiscriminantRoot(p1, n, k1, s) && (num == p1 - k1 + s || num == p1 - k1 - s)
    ensures num % 2 == 0 ==> IsRoot(p1, n, k1, num / 2)
  {
    if num % 2 == 0 {
      RootFromSquareRoot(k1 - p1, k1 * k1 - p1 * k1 + 4 * n * n, num / 2, s);
    }
  }
}

=== FILE: sum_of_squares_solver.dfy ===
/**
 Representations n = a^2 + b^2 with a, b >= 0, and the exact square-root
 helpers that sit beside them.
 */
module SumOfSquaresSolver {
  import opened NumberTheory

  /** (a, b) is a representation of n as a sum of two squares of non-negative integers. */
  ghost predicate IsRepresentation(n: int, a: int, b: int)
  {
    a >= 0 && b >= 0 && a * a + b * b == n
  }

  /** How often FindSumOfSquaresRepresentations lists (a, b): a representation with
      a != b is met once as (a, b) when the walk reaches a, and once more as the
      mirror of (b, a) when it reaches b; (a, a) is met once. */
  ghost function Occurrences(n: int, a: int, b: int): nat
  {
    if !IsRepresentation(n, a, b) then 0 else if a == b then 1 else 2
  }

  /** Walks a = 0 .. floor(sqrt(n)); when n - a^2 is a square b^2 it records
      (a, b) and, for a != b, also (b, a). */
  method FindSumOfSquaresRepresentations(n: int) returns (result: seq<(int, int)>)
    ensures n < 0 ==> result == []
    ensures n == 0 ==> result == [(0, 0)]
    ensures forall a, b :: multiset(result)[(a, b)] == Occurrences(n, a, b)
  {
    result := [];
    if n < 0 {
      NoneForNegative(n, result);
      return;
    }
    if n == 0 {
      result := [(0, 0)];
      OnlyZeroForZero(n, result);
      return;
    }
    var maxA := FloorSqrt(n);
    var a := 0;
    while a <= maxA
      invariant 0 <= a <= maxA + 1
      invariant Found(n, result, a)
    {
      var tooBig, pairs := PairsWithPart(n, a);
      if tooBig {
        break;
      }
      ListPairs(n, a, result, pairs);
      result := result + pairs;
      a := a + 1;
    }
    FoundEverything(n, a, result);
  }

  /** A list with those multiplicities holds exactly the representations of n
      and is closed under swapping the parts. */
  lemma ListedRepresentations(n: int, result: seq<(int, int)>)
    requires forall a, b :: multiset(result)[(a, b)] == Occurrences(n, a, b)
    ensures forall a, b :: (a, b) in result <==> IsRepresentation(n, a, b)
    ensures forall a, b :: (a, b) in result ==> (b, a) in result
  {
  }

  /** One step of the walk: for a^2 > n it stops; otherwise, when n - a^2 = b^2
      it yields (a, b) and, for a != b, (b, a), and nothing when n - a^2 is not
      a square. Those are exactly the representations with a as a part, each
      once, except that (a, b) with b != a is also met as the mirror of (b, a). */
  method PairsWithPart(n: int, a: int) returns (tooBig: bool, pairs: seq<(int, int)>)
    requires a >= 0
    ensures tooBig <==> a * a > n
    ensures !tooBig ==> forall x, y :: multiset(pairs)[(x, y)] == PartCount(n, a, x, y)
  {
    var a2 := a * a;
    var b2 := n - a2;
    if b2 < 0 {
      return true, [];
    }
    var b := FloorSqrt(b2);
    if b * b != b2 {
      NoPartnerForA(n, a);
      return false, [];
    }
    pairs := [(a, b)];
    if a != b {
      pairs := pairs + [(b, a)];
    }
    OnlyPartnerForA(n, a, b);
    return false, pairs;
  }

  /** How often the step at a lists (x, y): once when x is a, and once more
      when y is a and x is not. */
  ghost function PartCount(n: int, a: int, x: int, y: int): nat
  {
    if IsRepresentation(n, x, y) then
      (if x == a then 1 else 0) + (if y == a && x != y then 1 else 0)
    else 0
  }

  /** The walk has passed every part below a: each representation (x, y) has
      been listed once for x < a and once more for y < a when x != y, and
      nothing else has been listed. */
  ghost predicate Found(n: int, result: seq<(int, int)>, a: int)
  {
    forall x, y :: multiset(result)[(x, y)] ==
      if IsRepresentation(n, x, y) then
        (if x < a then 1 else 0) + (if y < a && x != y then 1 else 0)
      else 0
  }

  /** Appending the pairs of the step at a moves the walk past a. */
  lemma ListPairs(n: int, a: int, before: seq<(int, int)>, pairs: seq<(int, int)>)
    requires Found(n, before, a)
    requires forall x, y :: multiset(pairs)[(x, y)] == PartCount(n, a, x, y)
    ensures Found(n, before + pairs, a + 1)
  {
    assert multiset(before + pairs) == multiset(before) + multiset(pairs);
  }

  /** Once a passes floor(sqrt(n)), or a^2 exceeds n, every representation has
      been listed as often as Occurrences says. */
  lemma FoundEverything(n: int, a: int, result: seq<(int, int)>)
    requires n > 0 && a >= 0 && Found(n, result, a)
    requires a > FloorSqrt(n) || a * a > n
    ensures forall x, y :: multiset(result)[(x, y)] == Occurrences(n, x, y)
  {
    if a > FloorSqrt(n) {
      SquareMonotone(FloorSqrt(n) + 1, a);
    }
    forall x, y
      ensures multiset(result)[(x, y)] == Occurrences(n, x, y)
    {
      if IsRepresentation(n, x, y) {
        PartsBelow(n, a, x, y);
      }
    }
  }

  /** Both parts of a representation of n lie below any a with a^2 > n. */
  lemma PartsBelow(n: int, a: int, x: int, y: int)
    requires a >= 0 && a * a > n && IsRepresentation(n, x, y)
    ensures x < a && y < a
  {
    if x >= a {
      SquareMonotone(a, x);
    } else if y >= a {
      SquareMonotone(a, y);
    }
  }

  /** 0 = 0^2 + 0^2 is the only representation of zero. */
  lemma OnlyZeroForZero(n: int, result: seq<(int, int)>)
    requires n == 0 && result == [(0, 0)]
    ensures forall a, b :: multiset(result)[(a, b)] == Occurrences(n, a, b)
  {
    forall a, b
      ensures multiset(result)[(a, b)] == Occurrences(n, a, b)
    {
      if IsRepresentation(0, a, b) {
        ZeroSquaresAreZero(a, b);
      }
    }
  }

  /** A negative number is no sum of two squares. */
  lemma NoneForNegative(n: int, result: seq<(int, int)>)
    requires n < 0 && result == []
    ensures forall a, b :: multiset(result)[(a, b)] == Occurrences(n, a, b)
  {
    forall a: int, b: int
      ensures !IsRepresentation(n, a, b)
    {
      if a >= 0 && b >= 0 {
        SquareMonotone(0, a);
        SquareMonotone(0, b);
      }
    }
  }

  lemma ZeroSquaresAreZero(a: int, b: int)
    requires IsRepresentation(0, a, b)
    ensures a == 0 && b == 0
  {
    if a > 0 {
      MulAtLeast(a, a);
    } else if b > 0 {
      MulAtLeast(b, b);
    }
  }

  /** When n - a^2 is not a square, no representation has a as either part. */
  lemma NoPartnerForA(n: int, a: int)
    requires a >= 0 && n - a * a >= 0 && !IsSquare(n - a * a)
    ensures forall y :: !IsRepresentation(n, a, y) && !IsRepresentation(n, y, a)
  {
    forall y | IsRepresentation(n, a, y) || IsRepresentation(n, y, a)
      ensures false
    {
      SquareRootsOf(y, n - a * a);
    }
  }

  /** When n - a^2 = b^2, the only representations with a as a part are (a, b) and (b, a). */
  lemma OnlyPartnerForA(n: int, a: int, b: nat)
    requires a >= 0 && b * b == n - a * a
    ensures forall y :: IsRepresentation(n, a, y) ==> y == b
    ensures forall y :: IsRepresentation(n, y, a) ==> y == b
    ensures IsRepresentation(n, a, b) && IsRepresentation(n, b, a)
  {
    forall y | IsRepresentation(n, a, y) || IsRepresentation(n, y, a)
      ensures y == b
    {
      SquareRootsOf(y, n - a * a);
      SquareRootsOf(b, n - a * a);
    }
  }

  /** Binary search for floor(sqrt(n)) keeping low^2 <= n < high^2; a negative
      argument is rejected. */
  method IntegerSqrt(n: int) returns (r: Option<int>)
    ensures r.None? <==> n < 0
    ensures r.Some? ==> r.value * r.value <= n < (r.value + 1) * (r.value + 1)
    ensures r.Some? ==> r.value == FloorSqrt(n)
  {
    if n < 0 {
      return None;
    }
    if n == 0 || n == 1 {
      FloorSqrtUnique(n, n);
      return Some(n);
    }
    var low, high := 0, n;
    assert n < n * n by { MulAtLeast(n, n - 1); }
    while high - low > 1
      invariant 0 <= low < high
      invariant low * low <= n < high * high
      decreases high - low
    {
      var mid := (low + high) / 2;
      var midSq := mid * mid;
      if midSq == n {
        SquareStrictMonotone(mid, mid + 1);
        FloorSqrtUnique(n, mid);
        return Some(mid);
      }
      if midSq < n {
        low := mid;
      } else {
        high := mid;
      }
    }
    FloorSqrtUnique(n, low);
    return Some(low);
  }

  /** n is a perfect square; the out-value is floor(sqrt(n)), or 0 for negative n. */
  method IsPerfectSquare(n: int) returns (b: bool, sqrt: int)
    ensures b <==> n >= 0 && exists r: nat :: r * r == n
    ensures n < 0 ==> sqrt == 0
    ensures n >= 0 ==> sqrt == FloorSqrt(n)
  {
    if n < 0 {
      return false, 0;
    }
    var s := IntegerSqrt(n);
    sqrt := s.value;
    b := sqrt * sqrt == n;
    FloorSqrtIsSquare(n);
  }
}
